=== FILE: README.md ===
# FileEngine core, modelled in Dafny

FileEngine is a small file service. A metadata table in MySQL (`t_file`) holds
one record per file. A MinIO object store holds the bytes, under the key
(bucket, file name). The service offers these operations:

- direct upload and download;
- presigned upload and download URLs;
- delete;
- metadata lookup;
- a paged listing.

This project models the core of that service:

- the validation helpers of `logics/common.go`;
- the orchestrator `logics/file.go`;
- the shared types of `interfaces/logics.go`;
- the metadata adapter `dbaccess/file.go`;
- the object-store adapter `drivenadapters/minio.go`.

Every operation is a pure function. Its inputs are:

- the two stores, as a `World` made of the table and the store;
- its request arguments;
- a fault map naming which port primitives fail and with what message (module `Faults`);
- an `Env` that supplies the outside world: a fresh uuid, the server clock, the stores'
  clocks, the entity tag, the URL signer, and `url.QueryUnescape`.

It returns a `Step`, which holds:

- the outcome: a result, an error, or a panic when a nil record is dereferenced;
- both stores afterwards;
- the port calls made, in order.

The modules follow the source files:

- `Strings` and `FilePath` model the Go library calls the code relies on:
  `strings.Contains`, `strings.ToLower`, `strings.TrimSuffix`, byte length,
  `filepath.Ext` and `filepath.Base`.
- `Validation` models `logics/common.go` and the two validators of `logics/file.go`.
- `Interfaces` models `interfaces/logics.go`.
- `MetaStore` models `dbaccess/file.go`.
- `ObjectStore` models `drivenadapters/minio.go`.
- `Logics` models `logics/file.go`.
- `Corrected` holds the corrected operations of the findings below.
- `LogicsProofs` relates several operations to each other, and an operation to
  the consistency of the two stores ("every row has its object").

## Model

| member | source | states |
|---|---|---|
| Strings.ContainsChar | logics/common.go:46-56 | a one-character substring occurs exactly when the character occurs, which the forbidden-character loop relies on |
| Strings.Lower | logics/common.go:79 | ToLower keeps the length and lower-cases exactly the ASCII capitals, position by position |
| Strings.LowerIdempotent | logics/common.go:79 | lower-casing twice is lower-casing once |
| Strings.TrimSuffix | logics/common.go:112 | when the suffix is present, trimmed + suffix is the input; otherwise the input is returned unchanged |
| Strings.Utf8Len | logics/common.go:36 | the byte length Go's len measures lies between the rune count and four times it, and equals the rune count exactly for ASCII names |
| FilePath.Ext | logics/common.go:79 | filepath.Ext returns the unique extension of the last path element: empty, or a dot followed by neither dot nor separator, ending the path |
| FilePath.ExtUnique | logics/common.go:79 | any string meeting the extension characterization is what Ext returns |
| FilePath.ExtWithoutDot | logics/common.go:79 | a name without a dot has the empty extension |
| FilePath.ExtLower | logics/common.go:79 | extension then lower-case equals lower-case then extension |
| FilePath.Base | logics/file.go:54 | filepath.Base: "." for the empty path; the separator alone for a path of separators only; otherwise the last element, the suffix of the path without trailing separators that is free of separators and starts after a separator or at the start |
| FilePath.BaseOfPlainName | logics/file.go:54 | a non-empty name without separators is its own base, so a validated name is stored as given |
| Interfaces.GetContentType | interfaces/logics.go:68-74 | the header's Content-Type verbatim when set, application/octet-stream otherwise; never empty |
| Interfaces.Close | interfaces/logics.go:62-66 | closing marks the reader closed, keeps its data and the file, and does nothing when there is no reader |
| Interfaces.CloseIdempotent | interfaces/logics.go:62-66 | closing twice is closing once |
| Validation.AnyContained | logics/common.go:46-56 | true exactly when some listed substring occurs in the name |
| Validation.InvalidCharsFound | logics/common.go:46-56 | the loop over the nine one-character strings rejects exactly the names that contain one of `<>:"\|?*\/` |
| Validation.ValidFileName | logics/common.go:35-59 | valid iff the name is non-empty, at most 255 bytes, and free of the nine forbidden characters; otherwise 400 Invalid filename |
| Validation.ValidFileSize | logics/common.go:62-75 | valid iff size is at most 5 GiB; otherwise 400 size exceeded; a negative size passes |
| Validation.ValidFileExtension | logics/common.go:78-107 | valid iff the lower-cased name ends in one of the 33 allowed extensions; otherwise 400 extension not allowed |
| Validation.ExtensionAllowedIffSuffix | logics/common.go:79-95 | the lower-cased Ext is in the allowed list iff the lower-cased name ends in an allowed entry |
| Validation.AllowedAreExtensions | logics/common.go:80-87 | every allowed entry is itself a well-formed extension (a dot, then no dot or separator) |
| Validation.ExtensionCaseInsensitive | logics/common.go:79 | two names equal up to ASCII case get the same verdict |
| Validation.NoDotRejected | logics/common.go:79-104 | a name without a dot is always rejected |
| Validation.LastExtensionCounts | logics/common.go:79-95 | only the last extension counts: `x.tar.gz` has extension `.gz` and is accepted |
| Validation.UpperCaseExtensionAccepted | logics/common.go:79-95 | `a.JPG` is accepted, like `a.jpg` |
| Validation.ValidateFile | logics/file.go:309-326 | valid iff name, size and extension checks all pass; on failure, the first failing check's 400 error, in the order name, size, extension |
| Validation.ValidateFileInfo | logics/file.go:341-353 | valid iff name and size checks pass (no extension check); on failure the first failing check's error |
| Validation.PresignedPathSkipsExtension | logics/file.go:341-353 | `run.sh` is accepted for a presigned upload though a direct upload rejects it |
| Validation.UniqueObjectName | logics/common.go:110-122 | the key starts with the name without its extension and ends with the extension; UniqueObjectNameInjective shows the timestamp and the token are both recoverable from it |
| Validation.UniqueObjectNameKeepsExtension | logics/common.go:110-122 | with a dot-free timestamp and token, the key has the original name's extension |
| Validation.UniqueObjectNameInjective | logics/common.go:110-122 | for one name, timestamps of one length and tokens of one length, equal keys come only from equal timestamps and equal tokens |
| MetaStore.NewRow | dbaccess/file.go:31-43 | the inserted row, read back through convertToFileInfo, is the given record with both timestamps set by the table |
| MetaStore.ConvertToFileInfo | dbaccess/file.go:175-186 | every read record carries both timestamps |
| MetaStore.ConvertReadBack | dbaccess/file.go:175-186 | the row is recovered from its record column for column: RowOf inverts the conversion |
| MetaStore.RowOf | dbaccess/file.go:175-186 | a record describes a row exactly when it carries both timestamps |
| MetaStore.ConvertInjective | dbaccess/file.go:175-186 | two rows give the same record iff they are the same row: no column is dropped or copied into another |
| MetaStore.ConvertRoundTrip | dbaccess/file.go:175-186 | converting a row and inserting the record again at its creation time gives back the row, with its update time reset to that creation time |
| MetaStore.FindFirst | dbaccess/file.go:45-78 | None iff no row matches; otherwise the first matching row |
| MetaStore.FindIdUnique | dbaccess/file.go:56 | in a well-formed table, the lookup by a row's id finds that row |
| MetaStore.FindNameUnique | dbaccess/file.go:91 | in a well-formed table, the lookup by a row's name finds that row |
| MetaStore.Filter | dbaccess/file.go:116 | keeps exactly the rows satisfying the condition and preserves uniqueness of ids and names |
| MetaStore.CreateFile | dbaccess/file.go:31-43 | succeeds iff the insert is not faulted and neither id nor name is taken; appends the row on success, changes nothing on error; keeps ids and names unique |
| MetaStore.GetFileByID | dbaccess/file.go:45-78 | error iff the query fails; no record (nil, nil) iff no row has the id; otherwise the converted row with that id |
| MetaStore.GetFileByName | dbaccess/file.go:80-113 | error iff the query fails; no record iff no row has the name; otherwise the converted row with that name |
| MetaStore.DeleteFile | dbaccess/file.go:115-119 | error iff the statement fails; on success exactly the rows with another id remain |
| MetaStore.InsertByCreateTime | dbaccess/file.go:144 | inserting into a newest-first sequence keeps it newest-first and adds exactly the one row |
| MetaStore.SortByCreateTimeDesc | dbaccess/file.go:144 | ORDER BY create_time DESC: a newest-first permutation of the input |
| MetaStore.InBucket | dbaccess/file.go:142-143 | exactly the rows of the bucket |
| MetaStore.BucketNewestFirst | dbaccess/file.go:142-144 | the bucket's rows, as a newest-first permutation |
| MetaStore.Window | dbaccess/file.go:145 | LIMIT/OFFSET: at most `limit` rows, the ones at offset, offset+1, ... of the input, order kept |
| MetaStore.ListWindow | dbaccess/file.go:131-172 | at most `limit` records, all of the bucket, all converted table rows, newest first |
| MetaStore.ConvertAll | dbaccess/file.go:155-170 | converts each row in order |
| MetaStore.ConvertAllAppend | dbaccess/file.go:155-170 | converting a concatenation is concatenating the conversions |
| MetaStore.ConvertAllSlice | dbaccess/file.go:155-170 | converting a slice is slicing the conversion |
| MetaStore.GetFileList | dbaccess/file.go:121-173 | succeeds iff neither query fails and LIMIT and OFFSET are non-negative; total is the bucket's row count; files is the window at (page-1)*pageSize |
| MetaStore.ListWindowIsSlice | dbaccess/file.go:131-148 | the listed records are the converted rows of the newest-first bucket at offset+i, with the exact page length; the page is the slice of the converted ordering that starts at the offset |
| ObjectStore.EnsureBucket | drivenadapters/minio.go:27-38 | succeeds iff the existence check works and the bucket exists or can be made; afterwards the bucket exists; objects untouched |
| ObjectStore.Upload | drivenadapters/minio.go:26-46 | succeeds iff the bucket is ensured and the put works; on success exactly the key is (over)written; on failure no object changes; in every case the buckets are those the bucket check leaves (a bucket made before a failed put stays) and the miss message is unchanged |
| ObjectStore.Download | drivenadapters/minio.go:48-55 | fails only when GetObject fails; the open reader has data iff the object exists, and then exactly its content |
| ObjectStore.Delete | drivenadapters/minio.go:57-59 | fails iff RemoveObject fails; on success exactly the key is gone, whether or not it existed |
| ObjectStore.Stat | drivenadapters/minio.go:72-76 | the stored object when present; the store's miss message when absent; the fault when faulted |
| ObjectStore.StatAfterUpload | drivenadapters/minio.go:26-46 | after a successful put, a stat returns exactly the put object, FileExists answers true and GetFileInfo reports its size, content type, time and entity tag |
| ObjectStore.StatAfterUploadElsewhere | drivenadapters/minio.go:26-46 | a put, failed or not, leaves the stat of every other key unchanged |
| ObjectStore.StatAfterDelete | drivenadapters/minio.go:57-70 | after a successful delete, a stat reports the miss message; FileExists answers false iff that message contains "not found"; GetFileInfo fails |
| ObjectStore.FileExists | drivenadapters/minio.go:61-70 | true iff the stat succeeds; false iff the stat error says "not found"; any other error is passed on |
| ObjectStore.GetFileInfo | drivenadapters/minio.go:72-84 | succeeds iff the stat does; size, content type, time and entity tag of the object |
| ObjectStore.PresignedDownloadURL | drivenadapters/minio.go:87-115 | a signed GET URL iff the bucket exists, the object exists and no call fails; never changes the store |
| ObjectStore.PresignedUploadURL | drivenadapters/minio.go:118-139 | makes a missing bucket, then a signed PUT URL; the object need not exist; objects untouched |
| Logics.WholeSeconds | logics/file.go:212-214 | the whole seconds of a duration, truncated toward zero, bracketed by the nanosecond value |
| Logics.Upload | logics/file.go:46-122 | invalid file: its error, no calls; a recorded name: 400 and nothing written; a lookup fault does not stop the upload; an open failure: 500 before any write; the bytes are put iff the checks pass and the file opens; a failed put: 500, the insert never called, no object changed; the insert is called iff the put succeeds, and the upload succeeds iff the insert does; success: the exact record, the row appended, and the whole store exactly as the put left it; a failed insert: a compensating delete and a 500 |
| Logics.ValidNameIsBase | logics/file.go:54 | a file name that passes validation is its own base name, so Upload stores and records it exactly as given |
| Logics.RecordUpload | logics/file.go:98-121 | succeeds iff the insert does, appending exactly the new row and keeping the stored object; otherwise a 500 RecordCreateFailed over the table unchanged and the store left by the compensating delete |
| Logics.Download | logics/file.go:124-168 | changes nothing; panics iff the lookup answers with no record; a lookup fault is 404; a failed existence check is 500; a failed GetObject is 500; succeeds iff the record is found, the existence check answers and GetObject works; a served reader holds the object's bytes when present and nothing when absent |
| Logics.GenerateUploadURL | logics/file.go:171-222 | never writes objects; for a valid request the store afterwards is exactly the one the presigning call leaves, on every path; a valid request whose signing fails is 500 UploadUrlFailed, and one whose signed URL does not unescape is 500 UnescapeFailed; the insert is reached iff validation, signing and unescaping succeed, and then succeeds iff the insert does; a failed insert is 400 NameTaken when its message contains "Duplicate entry" and 500 RecordCreateFailed otherwise; success: fresh id, the unescaped signed PUT URL, expiry now+timeout, whole seconds, the row appended |
| Logics.CheckDownloadPermission | logics/file.go:329-338 | every download is allowed |
| Logics.GenerateDownloadURL | logics/file.go:225-269 | changes nothing; panics iff no record; a lookup fault is 404; a failed existence check is 500; an object reported absent is 404; a failed signing is 500; succeeds iff the record is found, its object is reported present and the store signs the URL; success: the record, its object present, the signed GET URL, expiry fields, direct download; a missing object stops before signing |
| Logics.Delete | logics/file.go:271-291 | panics iff no record; a lookup fault is a LookupFailed error that changes nothing; succeeds iff the record is found and both the object delete and the row delete work; a failed object delete is StorageDeleteFailed and changes nothing; a failed row delete is RecordDeleteFailed over the table unchanged and the object gone; once the object delete succeeds, the store is exactly the one it leaves (buckets and miss message kept); success: exactly the record's rows gone and exactly its object gone; only success changes the table |
| Logics.GetMeta | logics/file.go:293-295 | error iff the lookup fails; nothing iff no row has the id; otherwise the converted row with that id |
| Logics.ClampPaging | logics/file.go:297-303 | page at least 1, kept when already so; page size kept when in 1..100, else 20 |
| Logics.GetList | logics/file.go:297-306 | error iff a query fails; paging input never causes one; total is the default bucket's count; at most 100 files, 20 for an out-of-range size, all of the default bucket |
| Corrected.UploadChecked | logics/file.go:57-66 | a failed name lookup stops the upload with a 500; the store is written only when the lookup says the name is free; otherwise as Upload |
| Corrected.DownloadChecked | logics/file.go:124-168 | never panics; succeeds iff the record is found, the object is reported present and GetObject works; an object reported absent is 404 after two calls; every other case that does not panic is exactly Download; a served reader holds exactly the object's bytes |
| Corrected.AbsentAsNotFound | logics/file.go:232-240 | turns the nil-record panic into the given error and leaves every other step alone |
| Corrected.GenerateDownloadURLChecked | logics/file.go:225-269 | never panics; an absent record is 404; wherever GenerateDownloadURL does not panic, the same step |
| Corrected.DeleteChecked | logics/file.go:271-291 | never panics; an absent record is a lookup failure that changes nothing; wherever Delete does not panic, the same step |
| LogicsProofs.UploadTouchesOnlyItsKey | logics/file.go:86-111 | Upload leaves every object other than (default bucket, name) as it was |
| LogicsProofs.UploadCompensationStore | logics/file.go:108-111 | after a failed insert the store is the one the compensating delete leaves; when that delete fails too, the uploaded object stays behind |
| LogicsProofs.UploadKeepsRowsBacked | logics/file.go:57-119 | when the name lookup answers, Upload keeps every row backed by its object |
| LogicsProofs.UploadCheckedKeepsRowsBacked | logics/file.go:57-119 | the corrected Upload keeps every row backed whatever fails |
| LogicsProofs.UploadLookupErrorDestroysObject | logics/file.go:57-119 | as written, with the lookup failing on a recorded name, Upload fails with 500 and the recorded file loses its object |
| LogicsProofs.DeleteKeepsRowsBacked | logics/file.go:271-291 | a Delete whose row delete works keeps every remaining row backed |
| LogicsProofs.DeleteRecordFailureUnbacksRow | logics/file.go:278-288 | a failed row delete after the object delete leaves a row without its object |
| LogicsProofs.UploadURLRowWithoutObject | logics/file.go:191-210 | a presigned upload records a row whose object does not exist yet |
| LogicsProofs.UploadURLDuplicateName | logics/file.go:200-206 | a presigned upload of a recorded name is a 400, with the table unchanged |
| LogicsProofs.UploadThenDownload | logics/file.go:46-168 | downloading the id an upload returned yields its name, size, content type and exactly the uploaded bytes |
| LogicsProofs.UploadThenGetMeta | logics/file.go:99-121 | GetMeta of the uploaded id is the returned record with the table's timestamps |
| LogicsProofs.UploadKnownNameRejected | logics/file.go:57-66 | a valid upload of a recorded name is a 400 that writes nothing |
| LogicsProofs.UploadTwiceRejected | logics/file.go:57-66 | a second upload under a just-uploaded name is refused and changes nothing |
| LogicsProofs.DeleteThenGetMeta | logics/file.go:271-295 | after a successful Delete the id has no record |
| LogicsProofs.DeleteToleratesMissingObject | logics/file.go:278-290 | Delete of a record whose object is already gone succeeds and leaves the store as it was |
| LogicsProofs.DownloadURLMissingObject | logics/file.go:239-249 | a record whose object is gone gives 404 when the store's miss message says "not found", otherwise 500; nothing is signed |
| LogicsProofs.DownloadServesStoredObject | logics/file.go:124-167 | a recorded file whose object is stored is served, with exactly its bytes, when no port call fails |
| LogicsProofs.DownloadURLForStoredObject | logics/file.go:225-268 | a recorded file whose object is stored gets the GET signature of its key for the download lifetime when no port call fails |
| LogicsProofs.DeleteRemovesRecordedFile | logics/file.go:271-290 | a recorded file is deleted when no port call fails: its rows and its object are gone; the rest of the store, buckets and miss message included, is unchanged |
| LogicsProofs.DownloadServesMissingObject | logics/file.go:148-167 | as written, a missing object still yields a successful download with an empty reader |
| LogicsProofs.DownloadCheckedRejectsMissingObject | logics/file.go:148-150 | the corrected Download answers the same request with 404 |
| LogicsProofs.AbsentIdPanics | logics/file.go:126-138 | as written (here and at lines 232-240 and 273-279), an unknown id makes Download, GenerateDownloadURL and Delete dereference a nil record |
| LogicsProofs.CheckedAbsentIdNotFound | logics/file.go:126-138 | the corrected operations answer an unknown id with not found and change nothing |
| LogicsProofs.GetListIsSlice | logics/file.go:297-306 | without faults, GetList is the slice of the default bucket's newest-first rows at the clamped offset: its exact length (the clamped page size, fewer at the end, none past it) and each record at its position |
| LogicsProofs.ClampIdempotent | logics/file.go:298-303 | clamping twice is clamping once |
| LogicsProofs.ClampOutOfRange | logics/file.go:298-303 | page 0 with 500 per page is read as page 1 with 20 per page |

## Left out

- The HTTP handler, configuration loading, `main`, the HTTP client, the float
  helpers of `common/utils.go` and the error templates of `logics/errors.go` are
  not part of this model. Errors keep only their status and a cause tag.
- `uuid.New`, `time.Now`, the MinIO URL signer and `url.QueryUnescape` are
  parameters (`Env`). The format of a signed URL is not modelled.
- The bytes of an upload are the header's content. The declared size
  (`file.Size`) is the content's length. A stream shorter or longer than
  declared is not modelled.
- MetaStore.ConvertToFileInfo: its own contract only promises both
  timestamps. The column-for-column copy is stated by ConvertReadBack and
  ConvertInjective, which keeps the larger proofs that read records small.
- Logics.Upload: when the insert fails, Go's named results return the new
  `fileInfo` together with the error (logics/file.go:99-118). The model returns
  only the failure; the HTTP handler checks the error first and never reads it.
- Logics.Upload: the body takes the validated name itself where the code calls
  `filepath.Base` (logics/file.go:54). Logics.ValidNameIsBase proves the two
  agree on every name that passes validation.
- Concurrency, context cancellation and the logging calls are not modelled.
  Each operation runs alone against a snapshot of both stores.
- The MinIO client's message for a missing object is the store's `missText`.
  The existence checks answer "absent" only when that text contains
  "not found". The lemmas about a missing object assume it does.
- The fault map gives one outcome per primitive. Within one operation, both
  stat calls of GenerateDownloadURL see the same outcome.
- The `t_file` schema is not part of this model. Unique `id` and `name`
  columns are assumed. A duplicate insert fails with "Duplicate entry '<value>'".
  Rows created at the same instant are listed in insertion order, which is one
  of the orders SQL may return.
- Strings.Lower: folds only ASCII letters. Go's `strings.ToLower` also folds
  other letters, such as the Kelvin sign to `k`, and that case is not modelled.
- FilePath.Ext: uses `/` as the only separator, as on Unix. Windows volume
  names and `\` separators are not modelled.
- Logics.WholeSeconds: truncates the exact nanosecond count. Go goes through
  `float64` `Seconds()`, which can round differently for durations longer than
  about 2^53 ns.
- Logics.GetList: the offset `(page-1)*pageSize` is an unbounded integer. The
  wrap-around of Go's `int` for huge page numbers is not modelled.
- Validation.UniqueObjectName: the 14-digit timestamp and the eight-character
  uuid prefix are parameters. Nothing in the orchestrator calls it. Upload
  stores objects under the plain base name.
- In these places the code does not do what its own comments or messages
  suggest, and the model follows the code:
  - Download builds the 404 "File not found in storage" (logics/file.go:149)
    and then goes on to download anyway.
  - Delete removes the object before the row (logics/file.go:278-288), so a
    failed row delete leaves the row without its object.
  - Upload and the presigned path store the base name as given, although the
    step comment at logics/file.go:53 speaks of generating a unique name.
  - GenerateUploadURL records the content type as given, with no default like
    GetContentType's (interfaces/logics.go:68-74).
  - GenerateUploadURL does not check the extension (logics/file.go:341-353).
- Strings.Utf8Len: strings are sequences of Unicode scalar values. A Go file
  name with invalid UTF-8 bytes cannot be represented, so the byte count of
  such a name under Go's `len` is not modelled.

## Findings

| source | as written | input that shows it | evidently intended | confidence | as-written member | corrected member |
|---|---|---|---|---|---|---|
| logics/file.go:57-66 | a failing GetFileByName is ignored, and the upload goes on to overwrite the object | a row named `a.txt` exists; the name lookup fails; a new `a.txt` is uploaded; the insert hits the duplicate name and the compensating delete removes the recorded file's object | stop with an error when the lookup fails | medium, not executed | LogicsProofs.UploadLookupErrorDestroysObject | Corrected.UploadChecked |
| logics/file.go:148-150 | the 404 for a missing object is assigned to `err` and then overwritten by the download's result, with no `return` | a record whose object was removed from the store, in a store whose miss message contains "not found" (otherwise the existence check answers with a 500 first) | return 404 "File not found in storage" | medium, not executed | LogicsProofs.DownloadServesMissingObject | Corrected.DownloadChecked |
| logics/file.go:126-138 | GetFileByID returns nil, nil for an unknown id, and Download dereferences the nil record; so do GenerateDownloadURL (lines 232-240) and Delete (lines 273-279) | Download, GenerateDownloadURL or Delete with an id no row has | answer not found | high, not executed | LogicsProofs.AbsentIdPanics | Corrected.AbsentAsNotFound |

=== FILE: corrected.dfy ===
/** Corrected forms of three operations of logics/file.go, stating what the
    code evidently means to do where it does not (see the findings of the
    model): an upload stops when the name lookup fails, a download stops when
    the object is missing, and an absent record is reported as not found
    instead of being dereferenced. */
module Corrected {
  import opened Maybe
  import opened Interfaces
  import opened Faults
  import opened Validation
  import MetaStore
  import ObjectStore
  import opened Logics

  /** Upload, stopping with a server error when the name lookup fails. */
  function UploadChecked(cfg: Config, w: World, file: FileHeader, env: Env, fails: Faults): (s: Step<FileInfo>)
    ensures ValidateFile(file).Valid? && SqlSelectByName in fails ==>
      s == Step(Failed(HttpError(StatusInternalServerError, NameCheckFailed)), w, [DbGetByName])
    ensures ObjUpload in s.calls ==> MetaStore.GetFileByName(w.table, file.filename, fails) == Ok(None)
    ensures SqlSelectByName !in fails ==> s == Upload(cfg, w, file, env, fails)
  {
    if ValidateFile(file).Valid? && SqlSelectByName in fails then
      Step(Failed(HttpError(StatusInternalServerError, NameCheckFailed)), w, [DbGetByName])
    else
      Upload(cfg, w, file, env, fails)
  }

  /** Download, reporting an absent record and a missing object as not found. */
  function DownloadChecked(cfg: Config, w: World, id: string, fails: Faults): (s: Step<FileDownload>)
    ensures s.world == w
    ensures !s.out.Panicked?
    ensures var record := MetaStore.GetFileByID(w.table, id, fails);
            s.out.Done? <==>
              && record.Ok? && record.value.Some?
              && ObjectStore.FileExists(w.store, record.value.value.bucketId, record.value.value.name, fails) == Ok(true)
              && GetObject !in fails
    ensures var record := MetaStore.GetFileByID(w.table, id, fails);
            record.Ok? && record.value.Some? &&
            ObjectStore.FileExists(w.store, record.value.value.bucketId, record.value.value.name, fails) == Ok(false) ==>
              s == Step(Failed(HttpError(StatusNotFound, MissingInStorage)), w, [DbGetById, ObjExists])
    ensures var record := MetaStore.GetFileByID(w.table, id, fails);
            !Download(cfg, w, id, fails).out.Panicked? &&
            !(record.Ok? && record.value.Some? &&
              ObjectStore.FileExists(w.store, record.value.value.bucketId, record.value.value.name, fails) == Ok(false)) ==>
              s == Download(cfg, w, id, fails)
    ensures s.out.Done? ==>
      && MetaStore.GetFileByID(w.table, id, fails) == Ok(Some(s.out.value.file))
      && ObjectStore.ObjKey(s.out.value.file.bucketId, s.out.value.file.name) in w.store.objects
      && s.out.value.reader.Some?
      && s.out.value.reader.value.data ==
           Some(w.store.objects[ObjectStore.ObjKey(s.out.value.file.bucketId, s.out.value.file.name)].content)
  {
    var record := MetaStore.GetFileByID(w.table, id, fails);
    if record.Err? || record.value.None? then Step(Failed(HttpError(StatusNotFound, RecordNotFound)), w, [DbGetById])
    else
      var f := record.value.value;
      var present := ObjectStore.FileExists(w.store, f.bucketId, f.name, fails);
      if present.Err? then
        Step(Failed(HttpError(StatusInternalServerError, ExistenceCheckFailed)), w, [DbGetById, ObjExists])
      else if !present.value then
        Step(Failed(HttpError(StatusNotFound, MissingInStorage)), w, [DbGetById, ObjExists])
      else
        var stream := ObjectStore.Download(w.store, f.bucketId, f.name, fails);
        if stream.Err? then
          Step(Failed(HttpError(StatusInternalServerError, DownloadFailed)), w, [DbGetById, ObjExists, ObjDownload])
        else
          Step(Done(FileDownload(f, Some(stream.value))), w, [DbGetById, ObjExists, ObjDownload])
  }

  /** Turns the panic on an absent record into the given not-found error. */
  function AbsentAsNotFound<T>(s: Step<T>, notFound: Error): (r: Step<T>)
    ensures !r.out.Panicked?
    ensures s.out.Panicked? ==> r == s.(out := Failed(notFound))
    ensures !s.out.Panicked? ==> r == s
  {
    if s.out.Panicked? then s.(out := Failed(notFound)) else s
  }

  /** GenerateDownloadURL, reporting an absent record as not found. */
  function GenerateDownloadURLChecked(cfg: Config, w: World, id: string, env: Env, fails: Faults): (s: Step<DownloadURL>)
    ensures !s.out.Panicked? && s.world == w
    ensures (forall i :: 0 <= i < |w.table| ==> w.table[i].id != id) ==>
      s.out == Failed(HttpError(StatusNotFound, RecordNotFound))
    ensures !GenerateDownloadURL(cfg, w, id, env, fails).out.Panicked? ==> s == GenerateDownloadURL(cfg, w, id, env, fails)
  {
    AbsentAsNotFound(GenerateDownloadURL(cfg, w, id, env, fails), HttpError(StatusNotFound, RecordNotFound))
  }

  /** Delete, reporting an absent record as a lookup failure. */
  function DeleteChecked(cfg: Config, w: World, id: string, fails: Faults): (s: Step<()>)
    ensures !s.out.Panicked?
    ensures (forall i :: 0 <= i < |w.table| ==> w.table[i].id != id) ==>
      s.out == Failed(DeleteError(LookupFailed)) && s.world == w
    ensures !Delete(cfg, w, id, fails).out.Panicked? ==> s == Delete(cfg, w, id, fails)
  {
    AbsentAsNotFound(Delete(cfg, w, id, fails), DeleteError(LookupFailed))
  }
}

=== FILE: faults.dfy ===
/** Failures of the external collaborators. Every call the stores make to
    their client library (an SQL statement, a MinIO request) and the opening
    of the uploaded part is a primitive; a primitive that appears in a
    `Faults` map fails with the message it maps to, and succeeds otherwise. */
module Faults {

  datatype Prim =
    | SqlInsert | SqlSelectById | SqlSelectByName | SqlDelete | SqlCount | SqlSelectPage
    | BucketExists | MakeBucket | PutObject | GetObject | RemoveObject | StatObject
    | PresignGet | PresignPut
    | OpenUpload

  type Faults = map<Prim, string>
}

=== FILE: filepath.dfy ===
/** Go's path/filepath.Ext and filepath.Base on a system whose only path
    separator is '/'. */
module FilePath {
  import opened Strings

  const Separator: char := '/'

  /** `e` has the shape of an extension: empty, or a '.' followed by
      characters that are neither '.' nor a separator. */
  ghost predicate ExtShaped(e: string) {
    e == [] || (e[0] == '.' && forall k :: 1 <= k < |e| ==> e[k] != '.' && e[k] != Separator)
  }

  /** Every '.' of `p` lies before some separator, i.e. the last path element
      of `p` has no '.'. */
  ghost predicate NoDotInLastElement(p: string) {
    forall k :: 0 <= k < |p| && p[k] == '.' ==> exists j :: k < j < |p| && p[j] == Separator
  }

  /** Reference description of filepath.Ext: the suffix of `p` from the last
      '.' of its last element, or empty when that element has no '.'. */
  ghost predicate IsExtensionOf(e: string, p: string) {
    IsSuffix(e, p) && ExtShaped(e) && (e == [] ==> NoDotInLastElement(p))
  }

  /** The backwards scan of filepath.Ext, at position `i` (exclusive). */
  function ExtFrom(p: string, i: nat): (e: string)
    requires i <= |p|
    requires forall k :: i <= k < |p| ==> p[k] != '.' && p[k] != Separator
    ensures IsSuffix(e, p) && ExtShaped(e)
    ensures e == [] ==> forall k :: 0 <= k < i && p[k] == '.' ==> exists j :: k < j < |p| && p[j] == Separator
    decreases i
  {
    if i == 0 then []
    else if p[i - 1] == Separator then
      assert forall k :: 0 <= k < i && p[k] == '.' ==> k < i - 1 && p[i - 1] == Separator;
      []
    else if p[i - 1] == '.' then p[i - 1..]
    else ExtFrom(p, i - 1)
  }

  /** filepath.Ext. */
  function Ext(p: string): (e: string)
    ensures IsExtensionOf(e, p)
  {
    ExtFrom(p, |p|)
  }

  /** The reference description determines the extension uniquely. */
  lemma ExtUnique(p: string, e: string)
    requires IsExtensionOf(e, p)
    ensures e == Ext(p)
  {
  }

  /** The extension of a name with no '.' at all is empty. */
  lemma ExtWithoutDot(p: string)
    requires '.' !in p
    ensures Ext(p) == []
  {
  }

  /** Lower-casing the path and taking its extension is the same as taking the
      extension and lower-casing it, since lower-casing neither creates nor
      removes a '.' or a separator. */
  lemma ExtLower(p: string)
    ensures Ext(Lower(p)) == Lower(Ext(p))
  {
    var e := Ext(p);
    var lp, le := Lower(p), Lower(e);
    LowerSlice(p, |p| - |e|, |p|);
    assert IsSuffix(le, lp);
    assert ExtShaped(le);
    if le == [] {
      forall k | 0 <= k < |lp| && lp[k] == '.'
        ensures exists j :: k < j < |lp| && lp[j] == Separator
      {
        assert p[k] == '.';
        var j :| k < j < |p| && p[j] == Separator;
        assert lp[j] == Separator;
      }
    }
    ExtUnique(lp, le);
  }

  /** `p` without its trailing separators. */
  function StripTrailingSeparators(p: string): (r: string)
    ensures IsPrefix(r, p)
    ensures r == [] || r[|r| - 1] != Separator
    ensures forall j :: |r| <= j < |p| ==> p[j] == Separator
    decreases |p|
  {
    if |p| > 0 && p[|p| - 1] == Separator then StripTrailingSeparators(p[..|p| - 1]) else p
  }

  /** Index of the last separator among the first `i` characters, or -1. */
  function LastSeparator(p: string, i: nat): (k: int)
    requires i <= |p|
    ensures -1 <= k < i
    ensures k >= 0 ==> p[k] == Separator
    ensures forall j :: k < j < i ==> p[j] != Separator
    decreases i
  {
    if i == 0 then -1
    else if p[i - 1] == Separator then i - 1
    else LastSeparator(p, i - 1)
  }

  /** filepath.Base: the last element of `p`, "." for the empty path and the
      separator alone for a path of separators only. */
  function Base(p: string): (b: string)
    ensures b != []
    ensures b == [Separator] || Separator !in b
    ensures p == [] ==> b == "."
    ensures p != [] && StripTrailingSeparators(p) == [] ==> b == [Separator]
    ensures var q := StripTrailingSeparators(p);
            q != [] ==> IsSuffix(b, q) && Separator !in b && (|b| == |q| || q[|q| - |b| - 1] == Separator)
  {
    if p == [] then "."
    else
      var q := StripTrailingSeparators(p);
      if q == [] then [Separator] else LastElement(q)
  }

  /** The part of `q` after its last separator, for a path that does not end
      in a separator. */
  function LastElement(q: string): (e: string)
    requires q != [] && q[|q| - 1] != Separator
    ensures e != [] && IsSuffix(e, q) && Separator !in e
    ensures |e| == |q| || q[|q| - |e| - 1] == Separator
  {
    var k := LastSeparator(q, |q|);
    if k >= 0 then
      var e := q[k + 1..];
      assert forall i :: 0 <= i < |e| ==> e[i] == q[k + 1 + i];
      e
    else q
  }

  /** A non-empty name without a separator is its own last element. */
  lemma BaseOfPlainName(p: string)
    requires p != [] && Separator !in p
    ensures Base(p) == p
  {
    assert StripTrailingSeparators(p) == p;
    assert LastSeparator(p, |p|) == -1;
  }
}

=== FILE: interfaces.dfy ===
/** The value types shared by the orchestrator and its callers
    (interfaces/logics.go), and the error values of the orchestrator. */
module Interfaces {
  import opened Maybe

  newtype byte = x: int | 0 <= x < 256

  const StatusBadRequest: int := 400
  const StatusNotFound: int := 404
  const StatusInternalServerError: int := 500

  /** The short title each HTTP error of the orchestrator carries. */
  datatype Cause =
    | InvalidFilename | SizeExceeded | ExtensionNotAllowed
    | NameTaken | OpenFailed | StorageUploadFailed | RecordCreateFailed
    | RecordNotFound | ExistenceCheckFailed | MissingInStorage | DownloadFailed
    | UploadUrlFailed | UnescapeFailed | DownloadUrlFailed
    | NameCheckFailed

  /** The stage whose failure a Delete error wraps. */
  datatype DeleteStage = LookupFailed | StorageDeleteFailed | RecordDeleteFailed

  /** An HTTP error (status code and title) or one of Delete's plain
      wrapped errors. */
  datatype Error = HttpError(status: int, cause: Cause) | DeleteError(stage: DeleteStage)

  /** A file's metadata record. The times are set by the metadata store;
      a record built by the orchestrator has none. */
  datatype FileInfo = FileInfo(
    id: string,
    name: string,
    contentType: string,
    bucketId: string,
    size: int,
    icon: string,
    createTime: Option<int>,
    updateTime: Option<int>)

  datatype UploadURL = UploadURL(id: string, url: string, expiresAt: int, expiresIn: int)

  datatype DownloadURL = DownloadURL(
    url: string,
    expiresAt: int,
    expiresIn: int,
    fileInfo: FileInfo,
    directDownload: bool)

  /** A byte stream over an object. `data` is None when the object it was
      opened on did not exist, so reading it fails. */
  datatype Reader = Reader(data: Option<seq<byte>>, closed: bool)

  /** A record bound to an open stream; a nil stream is `None`. */
  datatype FileDownload = FileDownload(file: FileInfo, reader: Option<Reader>)

  /** One uploaded part of a multipart form: its file name, the values of
      its Content-Type header and its bytes. */
  datatype FileHeader = FileHeader(filename: string, contentTypeValues: seq<string>, content: seq<byte>) {
    /** The part's size in bytes. */
    function Size(): nat {
      |content|
    }
  }

  /** The generic binary type of section 4.5.1 of RFC 2046. */
  const OctetStream: string := "application/octet-stream"

  /** Header.Get("Content-Type"): the first value, or empty when absent. */
  function HeaderContentType(file: FileHeader): string {
    if |file.contentTypeValues| > 0 then file.contentTypeValues[0] else ""
  }

  /** The part's content type, falling back to the generic binary type. */
  function GetContentType(file: FileHeader): (ct: string)
    ensures ct != ""
    ensures HeaderContentType(file) != "" ==> ct == HeaderContentType(file)
    ensures HeaderContentType(file) == "" ==> ct == OctetStream
  {
    var declared := HeaderContentType(file);
    if declared == "" then OctetStream else declared
  }

  /** FileDownload.Close: closes the stream when there is one. */
  function Close(d: FileDownload): (c: FileDownload)
    ensures c.file == d.file
    ensures c.reader.Some? <==> d.reader.Some?
    ensures c.reader.Some? ==> c.reader.value.closed && c.reader.value.data == d.reader.value.data
    ensures d.reader.None? ==> c == d
  {
    match d.reader
    case None => d
    case Some(r) => d.(reader := Some(r.(closed := true)))
  }

  /** Closing twice is closing once. */
  lemma CloseIdempotent(d: FileDownload)
    ensures Close(Close(d)) == Close(d)
  {
  }
}

=== FILE: logics.dfy ===
/** The transfer orchestrator of logics/file.go. Each operation is a function
    from the two stores, its inputs, the injected port failures and the
    environment (clock, fresh ids, URL signer) to its outcome, the stores
    afterwards, and the port calls it made, in order. */
module Logics {
  import opened Maybe
  import opened Strings
  import opened FilePath
  import opened Interfaces
  import opened Faults
  import opened Validation
  import MetaStore
  import ObjectStore

  /** The orchestrator's configuration: the two URL lifetimes in nanoseconds
      and the bucket every file goes to. */
  datatype Config = Config(uploadTimeout: int, downloadTimeout: int, defaultBucketId: string)

  /** The metadata table and the object store. */
  datatype World = World(table: MetaStore.Table, store: ObjectStore.Store)

  /** What the operations take from their surroundings: a fresh id (uuid), the
      server clock, the clocks of the two stores, the entity tag the object
      store assigns, the URL signer and url.QueryUnescape (None on a
      malformed escape). */
  datatype Env = Env(
    newId: string,
    now: int,
    tableNow: int,
    storeNow: int,
    etag: string,
    sign: ObjectStore.Signer,
    unescape: string -> Option<string>)

  /** The port methods an operation calls. */
  datatype PortCall =
    | DbGetByName | DbGetById | DbCreate | DbDelete | DbList
    | ObjUpload | ObjDownload | ObjDelete | ObjExists | ObjPresignGet | ObjPresignPut

  /** A result, an error, or a panic (a nil record dereferenced). */
  datatype Outcome<+T> = Done(value: T) | Failed(error: Error) | Panicked

  datatype Step<+T> = Step(out: Outcome<T>, world: World, calls: seq<PortCall>)

  /** Both stores are well formed. */
  ghost predicate WorldWf(w: World) {
    MetaStore.TableWf(w.table) && ObjectStore.StoreWf(w.store)
  }

  const NanosPerSecond: int := 1_000_000_000

  /** int64(d.Seconds()): whole seconds of a duration, truncated toward zero. */
  function WholeSeconds(d: int): (sec: int)
    ensures d >= 0 ==> 0 <= sec && sec * NanosPerSecond <= d < (sec + 1) * NanosPerSecond
    ensures d < 0 ==> sec <= 0 && (sec - 1) * NanosPerSecond < d <= sec * NanosPerSecond
  {
    if d >= 0 then d / NanosPerSecond else -((-d) / NanosPerSecond)
  }

  /** The record a direct or presigned upload inserts. */
  function NewRecord(id: string, name: string, contentType: string, bucketId: string, size: int): FileInfo {
    FileInfo(id, name, contentType, bucketId, size, "", None, None)
  }

  /** Upload: validate; refuse a name already recorded; put the bytes under
      (default bucket, name); insert the record; when the insert fails,
      delete the object again and report the insert's failure. An error of
      the name lookup does not stop the upload. */
  function Upload(cfg: Config, w: World, file: FileHeader, env: Env, fails: Faults): (s: Step<FileInfo>)
    ensures ValidateFile(file).Invalid? ==> s == Step(Failed(ValidateFile(file).error), w, [])
    ensures s.calls <= [DbGetByName, ObjUpload, DbCreate, ObjDelete]
    ensures !s.out.Panicked?
    ensures ObjUpload !in s.calls ==> s.world == w
    ensures s.out.Failed? ==> s.world.table == w.table
    ensures MetaStore.GetFileByName(w.table, file.filename, fails).Ok? &&
            MetaStore.GetFileByName(w.table, file.filename, fails).value.Some? ==>
            s.out == Failed(if ValidateFile(file).Invalid? then ValidateFile(file).error
                            else HttpError(StatusBadRequest, NameTaken)) && s.world == w && ObjUpload !in s.calls
    ensures ValidateFile(file).Valid? && SqlSelectByName in fails && OpenUpload !in fails ==> ObjUpload in s.calls
    ensures s.out.Done? ==>
      && s.calls == [DbGetByName, ObjUpload, DbCreate]
      && s.out.value == NewRecord(env.newId, file.filename, GetContentType(file), cfg.defaultBucketId, file.Size())
      && s.world.table == w.table + [MetaStore.NewRow(s.out.value, env.tableNow)]
      && s.world.store.objects == w.store.objects[ObjectStore.ObjKey(cfg.defaultBucketId, file.filename) :=
           ObjectStore.Obj(file.content, GetContentType(file), env.etag, env.storeNow)]
    ensures DbCreate in s.calls && s.out.Failed? ==>
      && s.calls == [DbGetByName, ObjUpload, DbCreate, ObjDelete]
      && s.out.error == HttpError(StatusInternalServerError, RecordCreateFailed)
      && (RemoveObject !in fails ==> ObjectStore.ObjKey(cfg.defaultBucketId, file.filename) !in s.world.store.objects)
    ensures var lookup := MetaStore.GetFileByName(w.table, file.filename, fails);
            var proceeds := ValidateFile(file).Valid? && !(lookup.Ok? && lookup.value.Some?);
            && (proceeds && OpenUpload in fails ==>
                  s == Step(Failed(HttpError(StatusInternalServerError, OpenFailed)), w, [DbGetByName]))
            && (ObjUpload in s.calls <==> proceeds && OpenUpload !in fails)
    ensures ObjUpload in s.calls ==>
      var put := ObjectStore.Upload(w.store, cfg.defaultBucketId, file.filename, file.content,
                                    GetContentType(file), env.etag, env.storeNow, fails);
      && (DbCreate in s.calls <==> put.err.None?)
      && (s.out.Done? ==> s.world.store == put.store)
      && (put.err.Some? ==>
            s == Step(Failed(HttpError(StatusInternalServerError, StorageUploadFailed)),
                      World(w.table, put.store), [DbGetByName, ObjUpload])
            && s.world.store.objects == w.store.objects)
    ensures DbCreate in s.calls ==>
      (s.out.Done? <==> MetaStore.CreateFile(w.table, NewRecord(env.newId, file.filename, GetContentType(file),
                          cfg.defaultBucketId, file.Size()), env.tableNow, fails).err.None?)
    ensures WorldWf(w) ==> WorldWf(s.world)
  {
    match ValidateFile(file)
    case Invalid(e) => Step(Failed(e), w, [])
    case Valid =>
      // filepath.Base leaves a validated name unchanged (ValidNameIsBase)
      var name := file.filename;
      var existing := MetaStore.GetFileByName(w.table, name, fails);
      if existing.Ok? && existing.value.Some? then
        Step(Failed(HttpError(StatusBadRequest, NameTaken)), w, [DbGetByName])
      else if OpenUpload in fails then
        Step(Failed(HttpError(StatusInternalServerError, OpenFailed)), w, [DbGetByName])
      else
        var contentType := GetContentType(file);
        var put := ObjectStore.Upload(w.store, cfg.defaultBucketId, name, file.content, contentType,
                                      env.etag, env.storeNow, fails);
        if put.err.Some? then
          Step(Failed(HttpError(StatusInternalServerError, StorageUploadFailed)),
               World(w.table, put.store), [DbGetByName, ObjUpload])
        else
          RecordUpload(w.table, put.store, NewRecord(env.newId, name, contentType, cfg.defaultBucketId, file.Size()),
                       env, fails)
  }

  /** A name that passes validation is its own base name, so taking the base
      name before the upload changes nothing. */
  lemma ValidNameIsBase(file: FileHeader)
    requires ValidateFile(file).Valid?
    ensures Base(file.filename) == file.filename
  {
    BaseOfPlainName(file.filename);
  }

  /** The stage of Upload after the object is stored: insert the record;
      when the insert fails, delete the object again and report the
      insert's failure. */
  function RecordUpload(table: MetaStore.Table, stored: ObjectStore.Store, info: FileInfo, env: Env, fails: Faults)
    : (s: Step<FileInfo>)
    ensures !s.out.Panicked?
    ensures s.out.Done? <==> MetaStore.CreateFile(table, info, env.tableNow, fails).err.None?
    ensures s.out.Done? ==>
      && s == Step(Done(info), World(table + [MetaStore.NewRow(info, env.tableNow)], stored),
                   [DbGetByName, ObjUpload, DbCreate])
    ensures s.out.Failed? ==>
      && s.calls == [DbGetByName, ObjUpload, DbCreate, ObjDelete]
      && s.out.error == HttpError(StatusInternalServerError, RecordCreateFailed)
      && s.world == World(table, ObjectStore.Delete(stored, info.bucketId, info.name, fails).store)
  {
    var insert := MetaStore.CreateFile(table, info, env.tableNow, fails);
    if insert.err.Some? then
      // the compensating delete; its own failure is not reported
      var undo := ObjectStore.Delete(stored, info.bucketId, info.name, fails);
      Step(Failed(HttpError(StatusInternalServerError, RecordCreateFailed)),
           World(table, undo.store), [DbGetByName, ObjUpload, DbCreate, ObjDelete])
    else
      Step(Done(info), World(insert.table, stored), [DbGetByName, ObjUpload, DbCreate])
  }

  /** Download: fetch the record, ask whether the object exists, open a
      stream on it. A record that is absent is dereferenced (a panic); an
      object reported missing does not stop the download. */
  function Download(cfg: Config, w: World, id: string, fails: Faults): (s: Step<FileDownload>)
    ensures s.world == w
    ensures s.calls <= [DbGetById, ObjExists, ObjDownload]
    ensures SqlSelectById in fails ==> s.out == Failed(HttpError(StatusNotFound, RecordNotFound))
    ensures s.out.Panicked? <==> SqlSelectById !in fails && forall i :: 0 <= i < |w.table| ==> w.table[i].id != id
    ensures var record := MetaStore.GetFileByID(w.table, id, fails);
            s.out.Done? <==>
              && record.Ok? && record.value.Some?
              && ObjectStore.FileExists(w.store, record.value.value.bucketId, record.value.value.name, fails).Ok?
              && GetObject !in fails
    ensures var record := MetaStore.GetFileByID(w.table, id, fails);
            record.Ok? && record.value.Some? ==>
              var present := ObjectStore.FileExists(w.store, record.value.value.bucketId, record.value.value.name, fails);
              && (present.Err? ==> s.out == Failed(HttpError(StatusInternalServerError, ExistenceCheckFailed)))
              && (present.Ok? && GetObject in fails ==> s.out == Failed(HttpError(StatusInternalServerError, DownloadFailed)))
    ensures s.out.Done? ==>
      && s.calls == [DbGetById, ObjExists, ObjDownload]
      && MetaStore.GetFileByID(w.table, id, fails) == Ok(Some(s.out.value.file))
      && s.out.value.reader.Some? && !s.out.value.reader.value.closed
      && var k := ObjectStore.ObjKey(s.out.value.file.bucketId, s.out.value.file.name);
         s.out.value.reader.value.data == if k in w.store.objects then Some(w.store.objects[k].content) else None
  {
    var record := MetaStore.GetFileByID(w.table, id, fails);
    if record.Err? then Step(Failed(HttpError(StatusNotFound, RecordNotFound)), w, [DbGetById])
    else if record.value.None? then Step(Panicked, w, [DbGetById])
    else
      var f := record.value.value;
      var present := ObjectStore.FileExists(w.store, f.bucketId, f.name, fails);
      if present.Err? then
        Step(Failed(HttpError(StatusInternalServerError, ExistenceCheckFailed)), w, [DbGetById, ObjExists])
      else
        // a false answer is overwritten by the download's own result
        var stream := ObjectStore.Download(w.store, f.bucketId, f.name, fails);
        if stream.Err? then
          Step(Failed(HttpError(StatusInternalServerError, DownloadFailed)), w, [DbGetById, ObjExists, ObjDownload])
        else
          Step(Done(FileDownload(f, Some(stream.value))), w, [DbGetById, ObjExists, ObjDownload])
  }

  /** GenerateUploadURL: validate name and size (not the extension); presign
      a PUT of (default bucket, filename); unescape the URL; insert the
      record before any byte exists. A duplicate insert is a client error. */
  function GenerateUploadURL(cfg: Config, w: World, filename: string, contentType: string, size: int,
                             env: Env, fails: Faults): (s: Step<UploadURL>)
    ensures ValidateFileInfo(filename, contentType, size).Invalid? ==>
      s == Step(Failed(ValidateFileInfo(filename, contentType, size).error), w, [])
    ensures s.calls <= [ObjPresignPut, DbCreate]
    ensures !s.out.Panicked?
    ensures s.world.store.objects == w.store.objects
    ensures s.out.Failed? ==> s.world.table == w.table
    ensures s.out.Done? ==>
      && s.calls == [ObjPresignPut, DbCreate]
      && s.out.value.id == env.newId
      && Some(s.out.value.url) == env.unescape(env.sign(ObjectStore.PutVerb,
           ObjectStore.ObjKey(cfg.defaultBucketId, filename), cfg.uploadTimeout))
      && s.out.value.expiresAt == env.now + cfg.uploadTimeout
      && s.out.value.expiresIn == WholeSeconds(cfg.uploadTimeout)
      && s.world.table == w.table + [MetaStore.NewRow(
           NewRecord(env.newId, filename, contentType, cfg.defaultBucketId, size), env.tableNow)]
      && cfg.defaultBucketId in s.world.store.buckets
    ensures var signed := ObjectStore.PresignedUploadURL(w.store, cfg.defaultBucketId, filename, cfg.uploadTimeout,
                                                         env.sign, fails);
            ValidateFileInfo(filename, contentType, size).Valid? ==>
              && s.world.store == signed.store
              && (signed.url.Err? ==> s.out == Failed(HttpError(StatusInternalServerError, UploadUrlFailed)))
              && (signed.url.Ok? && env.unescape(signed.url.value).None? ==>
                    s.out == Failed(HttpError(StatusInternalServerError, UnescapeFailed)))
    ensures DbCreate in s.calls <==>
      && ValidateFileInfo(filename, contentType, size).Valid?
      && ObjectStore.PresignedUploadURL(w.store, cfg.defaultBucketId, filename, cfg.uploadTimeout, env.sign, fails).url.Ok?
      && env.unescape(ObjectStore.PresignedUploadURL(w.store, cfg.defaultBucketId, filename, cfg.uploadTimeout,
                                                     env.sign, fails).url.value).Some?
    ensures DbCreate in s.calls ==>
      var insert := MetaStore.CreateFile(w.table, NewRecord(env.newId, filename, contentType, cfg.defaultBucketId, size),
                                         env.tableNow, fails);
      && (s.out.Done? <==> insert.err.None?)
      && (insert.err.Some? ==>
            s.out == Failed(if Contains(MetaStore.Message(insert.err.value), "Duplicate entry")
                            then HttpError(StatusBadRequest, NameTaken)
                            else HttpError(StatusInternalServerError, RecordCreateFailed)))
    ensures WorldWf(w) ==> WorldWf(s.world)
  {
    match ValidateFileInfo(filename, contentType, size)
    case Invalid(e) => Step(Failed(e), w, [])
    case Valid =>
      var signed := ObjectStore.PresignedUploadURL(w.store, cfg.defaultBucketId, filename,
                                                   cfg.uploadTimeout, env.sign, fails);
      var w1 := World(w.table, signed.store);
      if signed.url.Err? then
        Step(Failed(HttpError(StatusInternalServerError, UploadUrlFailed)), w1, [ObjPresignPut])
      else
        match env.unescape(signed.url.value)
        case None => Step(Failed(HttpError(StatusInternalServerError, UnescapeFailed)), w1, [ObjPresignPut])
        case Some(url) =>
          var info := NewRecord(env.newId, filename, contentType, cfg.defaultBucketId, size);
          var insert := MetaStore.CreateFile(w.table, info, env.tableNow, fails);
          if insert.err.Some? then
            var cause := if Contains(MetaStore.Message(insert.err.value), "Duplicate entry") then NameTaken
                         else RecordCreateFailed;
            var status := if cause == NameTaken then StatusBadRequest else StatusInternalServerError;
            Step(Failed(HttpError(status, cause)), w1, [ObjPresignPut, DbCreate])
          else
            Step(Done(UploadURL(info.id, url, env.now + cfg.uploadTimeout, WholeSeconds(cfg.uploadTimeout))),
                 World(insert.table, signed.store), [ObjPresignPut, DbCreate])
  }

  /** checkDownloadPermission: a placeholder that allows every download. */
  function CheckDownloadPermission(id: string): (r: Check)
    ensures r.Valid?
  {
    Valid
  }

  /** GenerateDownloadURL: check permission, fetch the record, require the
      object, presign a GET. An absent record is dereferenced (a panic). */
  function GenerateDownloadURL(cfg: Config, w: World, id: string, env: Env, fails: Faults): (s: Step<DownloadURL>)
    ensures s.world == w
    ensures s.calls <= [DbGetById, ObjExists, ObjPresignGet]
    ensures s.out.Panicked? <==> SqlSelectById !in fails && forall i :: 0 <= i < |w.table| ==> w.table[i].id != id
    ensures var record := MetaStore.GetFileByID(w.table, id, fails);
            s.out.Done? <==>
              && record.Ok? && record.value.Some?
              && ObjectStore.FileExists(w.store, record.value.value.bucketId, record.value.value.name, fails) == Ok(true)
              && ObjectStore.PresignedDownloadURL(w.store, record.value.value.bucketId, record.value.value.name,
                                                  cfg.downloadTimeout, env.sign, fails).Ok?
    ensures SqlSelectById in fails ==> s.out == Failed(HttpError(StatusNotFound, RecordNotFound))
    ensures var record := MetaStore.GetFileByID(w.table, id, fails);
            record.Ok? && record.value.Some? ==>
              var f := record.value.value;
              var present := ObjectStore.FileExists(w.store, f.bucketId, f.name, fails);
              && (present.Err? ==> s.out == Failed(HttpError(StatusInternalServerError, ExistenceCheckFailed)))
              && (present == Ok(false) ==> s.out == Failed(HttpError(StatusNotFound, MissingInStorage)))
              && (present == Ok(true) &&
                  ObjectStore.PresignedDownloadURL(w.store, f.bucketId, f.name, cfg.downloadTimeout, env.sign, fails).Err? ==>
                    s.out == Failed(HttpError(StatusInternalServerError, DownloadUrlFailed)))
    ensures s.out.Done? ==>
      && s.calls == [DbGetById, ObjExists, ObjPresignGet]
      && MetaStore.GetFileByID(w.table, id, fails) == Ok(Some(s.out.value.fileInfo))
      && ObjectStore.ObjKey(s.out.value.fileInfo.bucketId, s.out.value.fileInfo.name) in w.store.objects
      && s.out.value.directDownload
      && s.out.value.url == env.sign(ObjectStore.GetVerb,
           ObjectStore.ObjKey(s.out.value.fileInfo.bucketId, s.out.value.fileInfo.name), cfg.downloadTimeout)
      && s.out.value.expiresAt == env.now + cfg.downloadTimeout
      && s.out.value.expiresIn == WholeSeconds(cfg.downloadTimeout)
    ensures s.out == Failed(HttpError(StatusNotFound, MissingInStorage)) ==> ObjPresignGet !in s.calls
  {
    match CheckDownloadPermission(id)
    case Invalid(e) => Step(Failed(e), w, [])
    case Valid =>
      var record := MetaStore.GetFileByID(w.table, id, fails);
      if record.Err? then Step(Failed(HttpError(StatusNotFound, RecordNotFound)), w, [DbGetById])
      else if record.value.None? then Step(Panicked, w, [DbGetById])
      else
        var f := record.value.value;
        var present := ObjectStore.FileExists(w.store, f.bucketId, f.name, fails);
        if present.Err? then
          Step(Failed(HttpError(StatusInternalServerError, ExistenceCheckFailed)), w, [DbGetById, ObjExists])
        else if !present.value then
          Step(Failed(HttpError(StatusNotFound, MissingInStorage)), w, [DbGetById, ObjExists])
        else
          var url := ObjectStore.PresignedDownloadURL(w.store, f.bucketId, f.name, cfg.downloadTimeout, env.sign, fails);
          if url.Err? then
            Step(Failed(HttpError(StatusInternalServerError, DownloadUrlFailed)), w,
                 [DbGetById, ObjExists, ObjPresignGet])
          else
            Step(Done(DownloadURL(url.value, env.now + cfg.downloadTimeout, WholeSeconds(cfg.downloadTimeout), f, true)),
                 w, [DbGetById, ObjExists, ObjPresignGet])
  }

  /** Delete: fetch the record, delete the object, then the row. A failed
      object delete leaves both stores as they were. An absent record is
      dereferenced (a panic). */
  function Delete(cfg: Config, w: World, id: string, fails: Faults): (s: Step<()>)
    ensures s.calls <= [DbGetById, ObjDelete, DbDelete]
    ensures s.out.Panicked? <==> SqlSelectById !in fails && forall i :: 0 <= i < |w.table| ==> w.table[i].id != id
    ensures s.out.Panicked? || SqlSelectById in fails ==> s.world == w
    ensures DbDelete !in s.calls ==> s.world == w
    ensures DbDelete in s.calls ==> RemoveObject !in fails
    ensures s.world.table != w.table ==> s.out.Done?
    ensures var record := MetaStore.GetFileByID(w.table, id, fails);
            s.out.Done? <==> record.Ok? && record.value.Some? && RemoveObject !in fails && SqlDelete !in fails
    ensures SqlSelectById in fails ==> s == Step(Failed(DeleteError(LookupFailed)), w, [DbGetById])
    ensures var record := MetaStore.GetFileByID(w.table, id, fails);
            record.Ok? && record.value.Some? ==>
              var f := record.value.value;
              && (RemoveObject !in fails ==> s.world.store == ObjectStore.Delete(w.store, f.bucketId, f.name, fails).store)
              && (RemoveObject in fails ==>
                    s == Step(Failed(DeleteError(StorageDeleteFailed)), w, [DbGetById, ObjDelete]))
              && (RemoveObject !in fails && SqlDelete in fails ==>
                    s == Step(Failed(DeleteError(RecordDeleteFailed)),
                              World(w.table, ObjectStore.Delete(w.store, f.bucketId, f.name, fails).store),
                              [DbGetById, ObjDelete, DbDelete]))
    ensures s.out.Done? ==>
      && s.calls == [DbGetById, ObjDelete, DbDelete]
      && (forall row :: row in s.world.table <==> row in w.table && row.id != id)
      && exists i :: 0 <= i < |w.table| && w.table[i].id == id &&
           s.world.store.objects == w.store.objects - {ObjectStore.ObjKey(w.table[i].bucketId, w.table[i].name)}
    ensures WorldWf(w) ==> WorldWf(s.world)
  {
    var record := MetaStore.GetFileByID(w.table, id, fails);
    if record.Err? then Step(Failed(DeleteError(LookupFailed)), w, [DbGetById])
    else if record.value.None? then Step(Panicked, w, [DbGetById])
    else
      var f := record.value.value;
      var removed := ObjectStore.Delete(w.store, f.bucketId, f.name, fails);
      if removed.err.Some? then
        Step(Failed(DeleteError(StorageDeleteFailed)), w, [DbGetById, ObjDelete])
      else
        var dropped := MetaStore.DeleteFile(w.table, id, fails);
        if dropped.err.Some? then
          Step(Failed(DeleteError(RecordDeleteFailed)), World(w.table, removed.store), [DbGetById, ObjDelete, DbDelete])
        else
          Step(Done(()), World(dropped.table, removed.store), [DbGetById, ObjDelete, DbDelete])
  }

  /** GetMeta: the record with that id, straight from the metadata store. */
  function GetMeta(w: World, id: string, fails: Faults): (r: Result<Option<FileInfo>, MetaStore.DbError>)
    ensures r.Err? <==> SqlSelectById in fails
    ensures r.Ok? && r.value.None? <==> SqlSelectById !in fails && forall i :: 0 <= i < |w.table| ==> w.table[i].id != id
    ensures r.Ok? && r.value.Some? ==>
      exists i :: 0 <= i < |w.table| && w.table[i].id == id && r.value.value == MetaStore.ConvertToFileInfo(w.table[i])
  {
    MetaStore.GetFileByID(w.table, id, fails)
  }

  datatype Paging = Paging(page: int, pageSize: int)

  /** GetList's normalisation: page at least 1; a page size outside
      [1, 100] becomes 20. */
  function ClampPaging(page: int, pageSize: int): (p: Paging)
    ensures p.page >= 1 && 1 <= p.pageSize <= 100
    ensures page >= 1 ==> p.page == page
    ensures 1 <= pageSize <= 100 ==> p.pageSize == pageSize
    ensures !(1 <= pageSize <= 100) ==> p.pageSize == 20
  {
    Paging(if page < 1 then 1 else page, if pageSize < 1 || pageSize > 100 then 20 else pageSize)
  }

  /** GetList: one page of the default bucket's records. Bad paging input is
      clamped, never an error. */
  function GetList(cfg: Config, w: World, page: int, pageSize: int, fails: Faults): (r: Result<MetaStore.Page, MetaStore.DbError>)
    ensures r.Err? <==> SqlCount in fails || SqlSelectPage in fails
    ensures r.Ok? ==> r.value.total == |MetaStore.InBucket(w.table, cfg.defaultBucketId)|
    ensures r.Ok? ==> |r.value.files| <= 100 && (!(1 <= pageSize <= 100) ==> |r.value.files| <= 20)
    ensures r.Ok? ==> forall f :: f in r.value.files ==> f.bucketId == cfg.defaultBucketId
  {
    var p := ClampPaging(page, pageSize);
    MetaStore.GetFileList(w.table, cfg.defaultBucketId, p.page, p.pageSize, fails)
  }
}

=== FILE: logics_proofs.dfy ===
/** Properties that relate several operations of the orchestrator, or an
    operation and the consistency of the two stores. */
module LogicsProofs {
  import opened Maybe
  import opened Strings
  import opened Interfaces
  import opened Faults
  import opened Validation
  import MetaStore
  import ObjectStore
  import opened Logics
  import opened Corrected

  /** Every row has its object at (bucket, name). */
  ghost predicate RowsBacked(w: World) {
    forall i :: 0 <= i < |w.table| ==>
      ObjectStore.ObjKey(w.table[i].bucketId, w.table[i].name) in w.store.objects
  }

  /** Upload touches the store only under the key of the uploaded name:
      every other object keeps its presence and its content. */
  lemma UploadTouchesOnlyItsKey(cfg: Config, w: World, file: FileHeader, env: Env, fails: Faults,
                                other: ObjectStore.ObjKey)
    requires other != ObjectStore.ObjKey(cfg.defaultBucketId, file.filename)
    ensures var after := Upload(cfg, w, file, env, fails).world.store.objects;
            && (other in after <==> other in w.store.objects)
            && (other in w.store.objects ==> after[other] == w.store.objects[other])
  {
    var s := Upload(cfg, w, file, env, fails);
    if ObjUpload in s.calls && ValidateFile(file).Valid? && OpenUpload !in fails {
      var put := ObjectStore.Upload(w.store, cfg.defaultBucketId, file.filename, file.content,
                                    GetContentType(file), env.etag, env.storeNow, fails);
      assert other in put.store.objects <==> other in w.store.objects;
    }
  }

  /** When the insert fails, the store Upload leaves is the one the
      compensating delete leaves after the put: the object is gone unless
      that delete failed too, and then the upload's object stays behind. */
  lemma UploadCompensationStore(cfg: Config, w: World, file: FileHeader, env: Env, fails: Faults)
    requires DbCreate in Upload(cfg, w, file, env, fails).calls
    requires Upload(cfg, w, file, env, fails).out.Failed?
    ensures var put := ObjectStore.Upload(w.store, cfg.defaultBucketId, file.filename, file.content,
                                          GetContentType(file), env.etag, env.storeNow, fails);
            var after := Upload(cfg, w, file, env, fails).world.store;
            && after == ObjectStore.Delete(put.store, cfg.defaultBucketId, file.filename, fails).store
            && (RemoveObject in fails ==>
                  && after == put.store
                  && after.objects[ObjectStore.ObjKey(cfg.defaultBucketId, file.filename)] ==
                       ObjectStore.Obj(file.content, GetContentType(file), env.etag, env.storeNow))
  {
  }

  /** When the name lookup answers, Upload keeps every row backed by its
      object: it writes only under a name no row has. */
  lemma UploadKeepsRowsBacked(cfg: Config, w: World, file: FileHeader, env: Env, fails: Faults)
    requires WorldWf(w) && RowsBacked(w)
    requires SqlSelectByName !in fails
    ensures RowsBacked(Upload(cfg, w, file, env, fails).world)
  {
    var s := Upload(cfg, w, file, env, fails);
    var key := ObjectStore.ObjKey(cfg.defaultBucketId, file.filename);
    if s.world != w {
      assert MetaStore.GetFileByName(w.table, file.filename, fails) == Ok(None);
      forall i | 0 <= i < |s.world.table|
        ensures ObjectStore.ObjKey(s.world.table[i].bucketId, s.world.table[i].name) in s.world.store.objects
      {
        if i < |w.table| {
          assert s.world.table[i] == w.table[i];
          UploadTouchesOnlyItsKey(cfg, w, file, env, fails, ObjectStore.ObjKey(w.table[i].bucketId, w.table[i].name));
        }
      }
    }
  }

  /** The corrected upload keeps every row backed, whatever fails. */
  lemma UploadCheckedKeepsRowsBacked(cfg: Config, w: World, file: FileHeader, env: Env, fails: Faults)
    requires WorldWf(w) && RowsBacked(w)
    ensures RowsBacked(UploadChecked(cfg, w, file, env, fails).world)
  {
    if SqlSelectByName !in fails {
      UploadKeepsRowsBacked(cfg, w, file, env, fails);
    }
  }

  /** As written, a failed name lookup lets Upload overwrite the object of a
      file already recorded under that name; the insert then fails on the
      duplicate name and the compensating delete removes that object, so
      the existing record loses its bytes. */
  lemma UploadLookupErrorDestroysObject(cfg: Config, w: World, file: FileHeader, env: Env, fails: Faults, k: nat)
    requires ValidateFile(file).Valid?
    requires SqlSelectByName in fails
    requires OpenUpload !in fails && BucketExists !in fails && MakeBucket !in fails && PutObject !in fails
    requires SqlInsert !in fails && RemoveObject !in fails
    requires k < |w.table| && w.table[k].name == file.filename && w.table[k].bucketId == cfg.defaultBucketId
    ensures var s := Upload(cfg, w, file, env, fails);
            && s.out == Failed(HttpError(StatusInternalServerError, RecordCreateFailed))
            && s.world.table == w.table
            && !RowsBacked(s.world)
  {
    var s := Upload(cfg, w, file, env, fails);
    assert ObjUpload in s.calls;
    assert MetaStore.CreateFile(w.table, NewRecord(env.newId, file.filename, GetContentType(file),
                                cfg.defaultBucketId, file.Size()), env.tableNow, fails).err.Some?;
    assert DbCreate in s.calls;
  }

  /** When the row delete succeeds, Delete keeps every remaining row backed:
      the object it removes belongs to the deleted row alone. */
  lemma DeleteKeepsRowsBacked(cfg: Config, w: World, id: string, fails: Faults)
    requires WorldWf(w) && RowsBacked(w)
    requires SqlDelete !in fails
    ensures RowsBacked(Delete(cfg, w, id, fails).world)
  {
    var s := Delete(cfg, w, id, fails);
    if s.out.Done? {
      var i :| 0 <= i < |w.table| && w.table[i].id == id &&
               s.world.store.objects == w.store.objects - {ObjectStore.ObjKey(w.table[i].bucketId, w.table[i].name)};
      RemovalKeepsOthersBacked(w, i, s.world);
    }
  }

  /** Dropping row `i` and its object keeps every other row backed, since no
      other row shares its name. */
  lemma RemovalKeepsOthersBacked(w: World, i: nat, after: World)
    requires WorldWf(w) && RowsBacked(w) && i < |w.table|
    requires forall row :: row in after.table <==> row in w.table && row.id != w.table[i].id
    requires after.store.objects == w.store.objects - {ObjectStore.ObjKey(w.table[i].bucketId, w.table[i].name)}
    ensures RowsBacked(after)
  {
    forall j | 0 <= j < |after.table|
      ensures ObjectStore.ObjKey(after.table[j].bucketId, after.table[j].name) in after.store.objects
    {
      var row := after.table[j];
      assert row in after.table;
      var m :| 0 <= m < |w.table| && w.table[m] == row;
      assert m != i;
      assert row.name != w.table[i].name;
    }
  }

  /** A failed row delete after the object delete leaves a row without its
      object. */
  lemma DeleteRecordFailureUnbacksRow(cfg: Config, w: World, id: string, fails: Faults, k: nat)
    requires WorldWf(w)
    requires k < |w.table| && w.table[k].id == id
    requires SqlSelectById !in fails && RemoveObject !in fails && SqlDelete in fails
    ensures var s := Delete(cfg, w, id, fails);
            && s.out == Failed(DeleteError(RecordDeleteFailed))
            && s.world.table == w.table
            && !RowsBacked(s.world)
  {
    MetaStore.FindIdUnique(w.table, k);
  }

  /** A presigned upload records a row before any byte exists: if nothing is
      stored under the name yet, the new row has no object. */
  lemma UploadURLRowWithoutObject(cfg: Config, w: World, filename: string, contentType: string, size: int,
                                  env: Env, fails: Faults)
    requires GenerateUploadURL(cfg, w, filename, contentType, size, env, fails).out.Done?
    requires ObjectStore.ObjKey(cfg.defaultBucketId, filename) !in w.store.objects
    ensures !RowsBacked(GenerateUploadURL(cfg, w, filename, contentType, size, env, fails).world)
  {
    var s := GenerateUploadURL(cfg, w, filename, contentType, size, env, fails);
    assert s.world.table[|w.table|].name == filename;
  }

  /** A presigned upload whose name is already recorded is refused as a
      client error, and no URL is handed out. */
  lemma UploadURLDuplicateName(cfg: Config, w: World, filename: string, contentType: string, size: int,
                               env: Env, fails: Faults, k: nat)
    requires ValidateFileInfo(filename, contentType, size).Valid?
    requires BucketExists !in fails && MakeBucket !in fails && PresignPut !in fails && SqlInsert !in fails
    requires env.unescape(env.sign(ObjectStore.PutVerb, ObjectStore.ObjKey(cfg.defaultBucketId, filename),
                                   cfg.uploadTimeout)).Some?
    requires k < |w.table| && w.table[k].name == filename
    ensures var s := GenerateUploadURL(cfg, w, filename, contentType, size, env, fails);
            s.out == Failed(HttpError(StatusBadRequest, NameTaken)) && s.world.table == w.table
  {
    var info := NewRecord(env.newId, filename, contentType, cfg.defaultBucketId, size);
    var insert := MetaStore.CreateFile(w.table, info, env.tableNow, fails);
    var msg := MetaStore.Message(insert.err.value);
    assert msg[0..|"Duplicate entry"|] == "Duplicate entry";
    ContainsAt(msg, "Duplicate entry", 0);
  }

  /** Upload then Download: the record read back has the uploaded name,
      size and content type, and its stream yields the uploaded bytes. */
  lemma UploadThenDownload(cfg: Config, w: World, file: FileHeader, env: Env, f1: Faults, f2: Faults)
    requires WorldWf(w)
    requires Upload(cfg, w, file, env, f1).out.Done?
    requires SqlSelectById !in f2 && StatObject !in f2 && GetObject !in f2
    ensures var s2 := Download(cfg, Upload(cfg, w, file, env, f1).world, env.newId, f2);
            && s2.out.Done?
            && s2.out.value.file.name == file.filename
            && s2.out.value.file.size == |file.content|
            && s2.out.value.file.contentType == GetContentType(file)
            && s2.out.value.reader.value.data == Some(file.content)
  {
    var s1 := Upload(cfg, w, file, env, f1);
    var t := s1.world.table;
    var k := |w.table|;
    assert t[k].id == env.newId;
    MetaStore.FindIdUnique(t, k);
  }

  /** Upload then GetMeta: the record read back is the returned one, with
      the timestamps the table assigned. */
  lemma UploadThenGetMeta(cfg: Config, w: World, file: FileHeader, env: Env, f1: Faults, f2: Faults)
    requires WorldWf(w)
    requires Upload(cfg, w, file, env, f1).out.Done?
    requires SqlSelectById !in f2
    ensures var s1 := Upload(cfg, w, file, env, f1);
            GetMeta(s1.world, env.newId, f2) ==
              Ok(Some(s1.out.value.(createTime := Some(env.tableNow), updateTime := Some(env.tableNow))))
  {
    var s1 := Upload(cfg, w, file, env, f1);
    var t := s1.world.table;
    var k := |w.table|;
    assert t[k] == MetaStore.NewRow(s1.out.value, env.tableNow);
    MetaStore.FindIdUnique(t, k);
  }

  /** An upload under a name some row already has is refused as a client
      error when the lookup answers, and nothing is written anywhere. */
  lemma UploadKnownNameRejected(cfg: Config, w: World, file: FileHeader, env: Env, fails: Faults, k: nat)
    requires ValidateFile(file).Valid?
    requires SqlSelectByName !in fails
    requires k < |w.table| && w.table[k].name == file.filename
    ensures var s := Upload(cfg, w, file, env, fails);
            && s.out == Failed(HttpError(StatusBadRequest, NameTaken))
            && s.world == w
            && ObjUpload !in s.calls
  {
    var r := MetaStore.GetFileByName(w.table, file.filename, fails);
    assert !(r.Ok? && r.value.None?);
  }

  /** A second upload under a name just uploaded is refused and changes
      nothing: the store keeps exactly the first object for that name. */
  lemma UploadTwiceRejected(cfg: Config, w: World, file: FileHeader, again: FileHeader,
                            env: Env, env2: Env, f1: Faults, f2: Faults)
    requires Upload(cfg, w, file, env, f1).out.Done?
    requires again.filename == file.filename && ValidateFile(again).Valid?
    requires SqlSelectByName !in f2
    ensures var w1 := Upload(cfg, w, file, env, f1).world;
            var s2 := Upload(cfg, w1, again, env2, f2);
            && s2.out == Failed(HttpError(StatusBadRequest, NameTaken))
            && s2.world == w1
            && ObjUpload !in s2.calls
  {
    var w1 := Upload(cfg, w, file, env, f1).world;
    assert w1.table[|w.table|].name == file.filename;
    UploadKnownNameRejected(cfg, w1, again, env2, f2, |w.table|);
  }

  /** After a successful Delete the record is gone for GetMeta. */
  lemma DeleteThenGetMeta(cfg: Config, w: World, id: string, f1: Faults, f2: Faults)
    requires Delete(cfg, w, id, f1).out.Done?
    requires SqlSelectById !in f2
    ensures GetMeta(Delete(cfg, w, id, f1).world, id, f2) == Ok(None)
  {
    var t := Delete(cfg, w, id, f1).world.table;
    forall i | 0 <= i < |t|
      ensures t[i].id != id
    {
      assert t[i] in t;
    }
  }

  /** Delete tolerates an object already removed from the store: the row is
      still deleted and the call succeeds. */
  lemma DeleteToleratesMissingObject(cfg: Config, w: World, id: string, fails: Faults, k: nat)
    requires WorldWf(w)
    requires k < |w.table| && w.table[k].id == id
    requires ObjectStore.ObjKey(w.table[k].bucketId, w.table[k].name) !in w.store.objects
    requires SqlSelectById !in fails && RemoveObject !in fails && SqlDelete !in fails
    ensures var s := Delete(cfg, w, id, fails);
            s.out.Done? && s.world.store == w.store
  {
    MetaStore.FindIdUnique(w.table, k);
  }

  /** A download URL for a record whose object is gone is refused as not
      found when the store's miss message says "not found", and as a server
      error otherwise; no URL is signed either way. */
  lemma DownloadURLMissingObject(cfg: Config, w: World, id: string, env: Env, fails: Faults, k: nat)
    requires WorldWf(w)
    requires k < |w.table| && w.table[k].id == id
    requires ObjectStore.ObjKey(w.table[k].bucketId, w.table[k].name) !in w.store.objects
    requires SqlSelectById !in fails && StatObject !in fails
    ensures var s := GenerateDownloadURL(cfg, w, id, env, fails);
            && s.out == Failed(HttpError(if Contains(w.store.missText, "not found") then StatusNotFound
                                         else StatusInternalServerError,
                                         if Contains(w.store.missText, "not found") then MissingInStorage
                                         else ExistenceCheckFailed))
            && ObjPresignGet !in s.calls
  {
    MetaStore.FindIdUnique(w.table, k);
  }

  /** A recorded file whose object is stored is served when no port call
      fails: the record read back and exactly the object's bytes. */
  lemma DownloadServesStoredObject(cfg: Config, w: World, id: string, fails: Faults, k: nat)
    requires WorldWf(w)
    requires k < |w.table| && w.table[k].id == id
    requires ObjectStore.ObjKey(w.table[k].bucketId, w.table[k].name) in w.store.objects
    requires SqlSelectById !in fails && StatObject !in fails && GetObject !in fails
    ensures var s := Download(cfg, w, id, fails);
            && s.out.Done?
            && s.out.value.file == MetaStore.ConvertToFileInfo(w.table[k])
            && s.out.value.reader.value.data ==
                 Some(w.store.objects[ObjectStore.ObjKey(w.table[k].bucketId, w.table[k].name)].content)
  {
    MetaStore.FindIdUnique(w.table, k);
  }

  /** A recorded file whose object is stored gets a download URL when no
      port call fails: the GET signature of its key for the download
      lifetime. */
  lemma DownloadURLForStoredObject(cfg: Config, w: World, id: string, env: Env, fails: Faults, k: nat)
    requires WorldWf(w)
    requires k < |w.table| && w.table[k].id == id
    requires ObjectStore.ObjKey(w.table[k].bucketId, w.table[k].name) in w.store.objects
    requires SqlSelectById !in fails && StatObject !in fails && BucketExists !in fails && PresignGet !in fails
    ensures var s := GenerateDownloadURL(cfg, w, id, env, fails);
            && s.out.Done?
            && s.out.value.fileInfo == MetaStore.ConvertToFileInfo(w.table[k])
            && s.out.value.url ==
                 env.sign(ObjectStore.GetVerb, ObjectStore.ObjKey(w.table[k].bucketId, w.table[k].name),
                          cfg.downloadTimeout)
  {
    MetaStore.FindIdUnique(w.table, k);
  }

  /** A recorded file is deleted when no port call fails: its rows and its
      object are gone and everything else stays. */
  lemma DeleteRemovesRecordedFile(cfg: Config, w: World, id: string, fails: Faults, k: nat)
    requires WorldWf(w)
    requires k < |w.table| && w.table[k].id == id
    requires SqlSelectById !in fails && RemoveObject !in fails && SqlDelete !in fails
    ensures var s := Delete(cfg, w, id, fails);
            && s.out.Done?
            && (forall row :: row in s.world.table <==> row in w.table && row.id != id)
            && s.world.store ==
                 w.store.(objects := w.store.objects - {ObjectStore.ObjKey(w.table[k].bucketId, w.table[k].name)})
  {
    MetaStore.FindIdUnique(w.table, k);
  }

  /** As written, Download does not stop when the object is reported
      missing: it succeeds with a stream that has nothing to read. */
  lemma DownloadServesMissingObject(cfg: Config, w: World, id: string, fails: Faults, k: nat)
    requires WorldWf(w)
    requires k < |w.table| && w.table[k].id == id
    requires ObjectStore.ObjKey(w.table[k].bucketId, w.table[k].name) !in w.store.objects
    requires Contains(w.store.missText, "not found")
    requires SqlSelectById !in fails && StatObject !in fails && GetObject !in fails
    ensures var s := Download(cfg, w, id, fails);
            s.out.Done? && s.out.value.reader == Some(Reader(None, false))
  {
    MetaStore.FindIdUnique(w.table, k);
  }

  /** The corrected Download refuses the same request as not found. */
  lemma DownloadCheckedRejectsMissingObject(cfg: Config, w: World, id: string, fails: Faults, k: nat)
    requires WorldWf(w)
    requires k < |w.table| && w.table[k].id == id
    requires ObjectStore.ObjKey(w.table[k].bucketId, w.table[k].name) !in w.store.objects
    requires Contains(w.store.missText, "not found")
    requires SqlSelectById !in fails && StatObject !in fails
    ensures DownloadChecked(cfg, w, id, fails).out == Failed(HttpError(StatusNotFound, MissingInStorage))
  {
    MetaStore.FindIdUnique(w.table, k);
  }

  /** As written, an id with no record makes Download, GenerateDownloadURL
      and Delete dereference the nil record the lookup returns. */
  lemma AbsentIdPanics(cfg: Config, w: World, id: string, env: Env, fails: Faults)
    requires SqlSelectById !in fails
    requires forall i :: 0 <= i < |w.table| ==> w.table[i].id != id
    ensures Download(cfg, w, id, fails).out.Panicked?
    ensures GenerateDownloadURL(cfg, w, id, env, fails).out.Panicked?
    ensures Delete(cfg, w, id, fails).out.Panicked?
  {
  }

  /** The corrected operations report the same id as not found and change
      nothing. */
  lemma CheckedAbsentIdNotFound(cfg: Config, w: World, id: string, env: Env, fails: Faults)
    requires SqlSelectById !in fails
    requires forall i :: 0 <= i < |w.table| ==> w.table[i].id != id
    ensures DownloadChecked(cfg, w, id, fails) == Step(Failed(HttpError(StatusNotFound, RecordNotFound)), w, [DbGetById])
    ensures GenerateDownloadURLChecked(cfg, w, id, env, fails).out == Failed(HttpError(StatusNotFound, RecordNotFound))
    ensures DeleteChecked(cfg, w, id, fails) == Step(Failed(DeleteError(LookupFailed)), w, [DbGetById])
  {
  }

  /** Without faults, GetList answers with the slice of the default bucket's
      rows, newest first, that starts at the clamped page's offset. */
  lemma GetListIsSlice(cfg: Config, w: World, page: int, pageSize: int, fails: Faults, offset: int)
    requires SqlCount !in fails && SqlSelectPage !in fails
    requires offset == (ClampPaging(page, pageSize).page - 1) * ClampPaging(page, pageSize).pageSize
    ensures var ordered := MetaStore.BucketNewestFirst(w.table, cfg.defaultBucketId);
            var r := GetList(cfg, w, page, pageSize, fails);
            var limit := ClampPaging(page, pageSize).pageSize;
            && r.Ok?
            && |r.value.files| == (if offset >= |ordered| then 0
                                   else if offset + limit <= |ordered| then limit
                                   else |ordered| - offset)
            && (offset < |ordered| ==> r.value.files == MetaStore.ConvertAll(ordered)[offset..offset + |r.value.files|])
            && forall i :: 0 <= i < |r.value.files| ==>
                 r.value.files[i] == MetaStore.ConvertToFileInfo(ordered[offset + i])
  {
    var p := ClampPaging(page, pageSize);
    NonNegativeProduct(p.page - 1, p.pageSize);
    var r := MetaStore.GetFileList(w.table, cfg.defaultBucketId, p.page, p.pageSize, fails);
    assert r.Ok? && r.value.files == MetaStore.ListWindow(w.table, cfg.defaultBucketId, offset, p.pageSize);
    MetaStore.ListWindowIsSlice(w.table, cfg.defaultBucketId, offset, p.pageSize);
  }

  lemma NonNegativeProduct(a: int, b: int)
    requires a >= 0 && b >= 0
    ensures a * b >= 0
  {
  }

  /** Clamping is idempotent. */
  lemma ClampIdempotent(page: int, pageSize: int)
    ensures var p := ClampPaging(page, pageSize);
            ClampPaging(p.page, p.pageSize) == p
  {
  }

  /** Page 0 with 500 per page is read as page 1 with 20 per page. */
  lemma ClampOutOfRange()
    ensures ClampPaging(0, 500) == Paging(1, 20)
  {
  }
}

=== FILE: maybe.dfy ===
/** Optional values and two-way results, used wherever the Go code returns a
    nil reference or a (value, error) pair. */
module Maybe {

  /** A possibly absent value: `None` stands for a Go nil reference. */
  datatype Option<+T> = None | Some(value: T)

  /** The (value, error) pair of a Go call, with exactly one side present. */
  datatype Result<+T, +E> = Ok(value: T) | Err(error: E)
}

=== FILE: metastore.dfy ===
/** The metadata store of dbaccess/file.go, as an in-memory table. Rows are
    kept in insertion order; the table enforces a unique id and a unique name,
    and assigns both timestamps on insert from its own clock. */
module MetaStore {
  import opened Maybe
  import opened Interfaces
  import opened Faults

  /** One row of t_file. */
  datatype Row = Row(
    id: string,
    name: string,
    contentType: string,
    bucketId: string,
    size: int,
    icon: string,
    createTime: int,
    updateTime: int)

  type Table = seq<Row>

  /** A failed statement: a violated uniqueness constraint, or any other SQL
      failure with its message. */
  datatype DbError = DuplicateEntry(value: string) | SqlError(message: string)

  /** The error text a caller sees. */
  function Message(e: DbError): string {
    match e
    case DuplicateEntry(v) => "Duplicate entry '" + v + "'"
    case SqlError(m) => m
  }

  /** The outcome of a write: the error, if any, and the table afterwards. */
  datatype Write = Write(err: Option<DbError>, table: Table)

  /** One page of a listing and the number of rows in the bucket. */
  datatype Page = Page(files: seq<FileInfo>, total: int)

  /** No two rows share an id or a name. */
  ghost predicate TableWf(t: Table) {
    forall i, j :: 0 <= i < j < |t| ==> t[i].id != t[j].id && t[i].name != t[j].name
  }

  /** convertToFileInfo: every column, the timestamps included. */
  function ConvertToFileInfo(row: Row): (f: FileInfo)
    ensures f.createTime.Some? && f.updateTime.Some?
  {
    FileInfo(row.id, row.name, row.contentType, row.bucketId, row.size, row.icon,
             Some(row.createTime), Some(row.updateTime))
  }

  /** The row CreateFile inserts: the six supplied columns of `info`, and the
      table's clock reading `now` for both timestamps. */
  function NewRow(info: FileInfo, now: int): (row: Row)
    ensures ConvertToFileInfo(row) == info.(createTime := Some(now), updateTime := Some(now))
  {
    Row(info.id, info.name, info.contentType, info.bucketId, info.size, info.icon, now, now)
  }

  /** The row a record with both timestamps describes, column for column. */
  function RowOf(f: FileInfo): (row: Option<Row>)
    ensures row.Some? <==> f.createTime.Some? && f.updateTime.Some?
  {
    if f.createTime.Some? && f.updateTime.Some? then
      Some(Row(f.id, f.name, f.contentType, f.bucketId, f.size, f.icon, f.createTime.value, f.updateTime.value))
    else None
  }

  /** The row can be read back from its record, column for column. */
  lemma ConvertReadBack(row: Row)
    ensures RowOf(ConvertToFileInfo(row)) == Some(row)
  {
  }

  /** Distinct rows give distinct records: no column is dropped or merged. */
  lemma ConvertInjective(a: Row, b: Row)
    ensures ConvertToFileInfo(a) == ConvertToFileInfo(b) <==> a == b
  {
    if ConvertToFileInfo(a) == ConvertToFileInfo(b) {
      ConvertReadBack(a);
      ConvertReadBack(b);
    }
  }

  /** A row read back is a row written: NewRow inverts ConvertToFileInfo. */
  lemma ConvertRoundTrip(row: Row)
    ensures NewRow(ConvertToFileInfo(row), row.createTime) == row.(updateTime := row.createTime)
  {
  }

  /** Row selectors of the WHERE clauses. */
  function IdIs(id: string): Row -> bool {
    (row: Row) => row.id == id
  }

  function NameIs(name: string): Row -> bool {
    (row: Row) => row.name == name
  }

  /** The first row satisfying `p`, as a single-row SELECT returns it. */
  function FindFirst(t: Table, p: Row -> bool): (r: Option<Row>)
    ensures r.None? <==> forall i :: 0 <= i < |t| ==> !p(t[i])
    ensures r.Some? ==> exists i :: 0 <= i < |t| && t[i] == r.value && p(t[i]) &&
                                    forall j :: 0 <= j < i ==> !p(t[j])
  {
    if t == [] then None
    else if p(t[0]) then Some(t[0])
    else
      var r := FindFirst(t[1..], p);
      assert forall i :: 1 <= i < |t| ==> t[i] == t[1..][i - 1];
      if r.Some? then
        var i :| 0 <= i < |t[1..]| && t[1..][i] == r.value && p(t[1..][i]) &&
                 forall j :: 0 <= j < i ==> !p(t[1..][j]);
        assert t[i + 1] == r.value;
        r
      else r
  }

  /** In a well-formed table a row is the only one with its id, so a lookup
      by id finds exactly it. */
  lemma FindIdUnique(t: Table, k: nat)
    requires TableWf(t) && k < |t|
    ensures FindFirst(t, IdIs(t[k].id)) == Some(t[k])
  {
  }

  /** The same for names. */
  lemma FindNameUnique(t: Table, k: nat)
    requires TableWf(t) && k < |t|
    ensures FindFirst(t, NameIs(t[k].name)) == Some(t[k])
  {
  }

  /** The rows satisfying `p`, in table order. */
  function Filter(t: Table, p: Row -> bool): (r: Table)
    ensures |r| <= |t|
    ensures forall row :: row in r <==> row in t && p(row)
    ensures TableWf(t) ==> TableWf(r)
  {
    if t == [] then []
    else
      var rest := Filter(t[1..], p);
      assert forall row :: row in t[1..] ==> row in t;
      FilterStepWf(t, rest);
      if p(t[0]) then [t[0]] + rest else rest
  }

  /** One step of Filter keeps the table well formed: the tail of a well-formed
      table is well formed, and its head differs from every row drawn from the
      tail. */
  lemma FilterStepWf(t: Table, rest: Table)
    requires t != []
    requires TableWf(t[1..]) ==> TableWf(rest)
    requires forall row :: row in rest ==> row in t[1..]
    ensures TableWf(t) ==> TableWf(rest) && TableWf([t[0]] + rest)
  {
    if TableWf(t) {
      assert TableWf(t[1..]) by {
        forall i, j | 0 <= i < j < |t[1..]|
          ensures t[1..][i].id != t[1..][j].id && t[1..][i].name != t[1..][j].name
        {
          assert t[1..][i] == t[i + 1] && t[1..][j] == t[j + 1];
        }
      }
      forall row | row in rest
        ensures row.id != t[0].id && row.name != t[0].name
      {
        var k :| 0 <= k < |t[1..]| && t[1..][k] == row;
        assert t[k + 1] == row;
      }
      var r := [t[0]] + rest;
      forall i, j | 0 <= i < j < |r|
        ensures r[i].id != r[j].id && r[i].name != r[j].name
      {
        assert r[j] == rest[j - 1] && rest[j - 1] in rest;
        if i > 0 {
          assert r[i] == rest[i - 1];
        }
      }
    }
  }

  /** CreateFile: INSERT of the six columns. */
  function CreateFile(t: Table, info: FileInfo, now: int, fails: Faults): (w: Write)
    ensures w.err.None? <==>
      && SqlInsert !in fails
      && (forall i :: 0 <= i < |t| ==> t[i].id != info.id && t[i].name != info.name)
    ensures w.err.None? ==> w.table == t + [NewRow(info, now)]
    ensures w.err.Some? ==> w.table == t
    ensures TableWf(t) ==> TableWf(w.table)
  {
    if SqlInsert in fails then Write(Some(SqlError(fails[SqlInsert])), t)
    else if FindFirst(t, IdIs(info.id)).Some? then Write(Some(DuplicateEntry(info.id)), t)
    else if FindFirst(t, NameIs(info.name)).Some? then Write(Some(DuplicateEntry(info.name)), t)
    else Write(None, t + [NewRow(info, now)])
  }

  /** GetFileByID: the record with that id; absent is not an error. */
  function GetFileByID(t: Table, id: string, fails: Faults): (r: Result<Option<FileInfo>, DbError>)
    ensures r.Err? <==> SqlSelectById in fails
    ensures r.Ok? && r.value.None? <==> SqlSelectById !in fails && forall i :: 0 <= i < |t| ==> t[i].id != id
    ensures r.Ok? && r.value.Some? ==>
      exists i :: 0 <= i < |t| && t[i].id == id && r.value.value == ConvertToFileInfo(t[i])
  {
    if SqlSelectById in fails then Err(SqlError(fails[SqlSelectById]))
    else
      match FindFirst(t, IdIs(id))
      case None => Ok(None)
      case Some(row) => Ok(Some(ConvertToFileInfo(row)))
  }

  /** GetFileByName: the record with that name; absent is not an error. */
  function GetFileByName(t: Table, name: string, fails: Faults): (r: Result<Option<FileInfo>, DbError>)
    ensures r.Err? <==> SqlSelectByName in fails
    ensures r.Ok? && r.value.None? <==> SqlSelectByName !in fails && forall i :: 0 <= i < |t| ==> t[i].name != name
    ensures r.Ok? && r.value.Some? ==>
      exists i :: 0 <= i < |t| && t[i].name == name && r.value.value == ConvertToFileInfo(t[i])
  {
    if SqlSelectByName in fails then Err(SqlError(fails[SqlSelectByName]))
    else
      match FindFirst(t, NameIs(name))
      case None => Ok(None)
      case Some(row) => Ok(Some(ConvertToFileInfo(row)))
  }

  /** DeleteFile: removes the rows with that id and nothing else. */
  function DeleteFile(t: Table, id: string, fails: Faults): (w: Write)
    ensures w.err.Some? <==> SqlDelete in fails
    ensures w.err.Some? ==> w.table == t
    ensures w.err.None? ==> forall row :: row in w.table <==> row in t && row.id != id
    ensures TableWf(t) ==> TableWf(w.table)
  {
    if SqlDelete in fails then Write(Some(SqlError(fails[SqlDelete])), t)
    else Write(None, Filter(t, (row: Row) => row.id != id))
  }

  /** Newest first: creation times never increase along the sequence. */
  ghost predicate NewestFirst(s: seq<Row>) {
    forall i, j :: 0 <= i < j < |s| ==> s[i].createTime >= s[j].createTime
  }

  /** Inserts `x` into a newest-first sequence ahead of the rows no newer than it. */
  function InsertByCreateTime(x: Row, s: seq<Row>): (r: seq<Row>)
    requires NewestFirst(s)
    ensures NewestFirst(r)
    ensures multiset(r) == multiset(s) + multiset{x}
  {
    if s == [] then [x]
    else if x.createTime >= s[0].createTime then [x] + s
    else
      var rest := InsertByCreateTime(x, s[1..]);
      assert s == [s[0]] + s[1..];
      HeadIsNewest(s);
      forall y | y in rest
        ensures y.createTime <= s[0].createTime
      {
        assert y in multiset(rest);
      }
      PrependNewest(s[0], rest);
      [s[0]] + rest
  }

  /** The head of a newest-first sequence is at least as new as every row in it. */
  lemma HeadIsNewest(s: seq<Row>)
    requires NewestFirst(s) && s != []
    ensures forall y :: y in s[1..] ==> y.createTime <= s[0].createTime
  {
    forall y | y in s[1..]
      ensures y.createTime <= s[0].createTime
    {
      var k :| 0 <= k < |s[1..]| && s[1..][k] == y;
      assert s[k + 1] == y;
    }
  }

  /** A row at least as new as every row of a newest-first sequence may lead it. */
  lemma PrependNewest(a: Row, s: seq<Row>)
    requires NewestFirst(s)
    requires forall y :: y in s ==> y.createTime <= a.createTime
    ensures NewestFirst([a] + s)
  {
    var r := [a] + s;
    forall i, j | 0 <= i < j < |r|
      ensures r[i].createTime >= r[j].createTime
    {
      assert r[j] == s[j - 1];
      if i > 0 {
        assert r[i] == s[i - 1];
      } else {
        assert s[j - 1] in s;
      }
    }
  }

  /** ORDER BY create_time DESC, as an insertion sort. Rows created at the
      same instant may come in either order in SQL; this one is one of them. */
  function SortByCreateTimeDesc(s: seq<Row>): (r: seq<Row>)
    ensures NewestFirst(r)
    ensures multiset(r) == multiset(s)
  {
    if s == [] then []
    else
      assert s == [s[0]] + s[1..];
      InsertByCreateTime(s[0], SortByCreateTimeDesc(s[1..]))
  }

  /** The rows of a bucket. */
  function InBucket(t: Table, bucketId: string): (r: Table)
    ensures forall row :: row in r <==> row in t && row.bucketId == bucketId
  {
    Filter(t, (row: Row) => row.bucketId == bucketId)
  }

  /** A bucket's rows, newest first. */
  function BucketNewestFirst(t: Table, bucketId: string): (ordered: seq<Row>)
    ensures NewestFirst(ordered)
    ensures multiset(ordered) == multiset(InBucket(t, bucketId))
    ensures forall row :: row in ordered ==> row in t && row.bucketId == bucketId
  {
    var rows := InBucket(t, bucketId);
    var ordered := SortByCreateTimeDesc(rows);
    assert forall row :: row in ordered ==> row in multiset(rows);
    ordered
  }

  /** The records of one window of a bucket's rows, newest first. */
  function ListWindow(t: Table, bucketId: string, offset: nat, limit: nat): (files: seq<FileInfo>)
    ensures |files| <= limit
    ensures forall f :: f in files ==>
      f.bucketId == bucketId && exists row :: row in t && f == ConvertToFileInfo(row)
    ensures forall i, j :: 0 <= i < j < |files| ==>
      && files[i].createTime.Some? && files[j].createTime.Some?
      && files[i].createTime.value >= files[j].createTime.value
  {
    var window := Window(BucketNewestFirst(t, bucketId), offset, limit);
    var files := ConvertAll(window);
    forall f | f in files
      ensures f.bucketId == bucketId && exists row :: row in t && f == ConvertToFileInfo(row)
    {
      var i :| 0 <= i < |files| && files[i] == f;
      assert window[i] in t;
    }
    files
  }

  /** convertToFileInfo applied to each row, in order. */
  function ConvertAll(rows: seq<Row>): (files: seq<FileInfo>)
    ensures |files| == |rows|
    ensures forall i :: 0 <= i < |rows| ==> files[i] == ConvertToFileInfo(rows[i])
  {
    seq(|rows|, i requires 0 <= i < |rows| => ConvertToFileInfo(rows[i]))
  }

  /** Converting a concatenation converts each part. */
  lemma ConvertAllAppend(a: seq<Row>, b: seq<Row>)
    ensures ConvertAll(a + b) == ConvertAll(a) + ConvertAll(b)
  {
    assert forall i :: 0 <= i < |a + b| ==> ConvertAll(a + b)[i] == (ConvertAll(a) + ConvertAll(b))[i];
  }

  /** Converting a slice is slicing the conversion. */
  lemma ConvertAllSlice(rows: seq<Row>, lo: nat, hi: nat)
    requires lo <= hi <= |rows|
    ensures ConvertAll(rows[lo..hi]) == ConvertAll(rows)[lo..hi]
  {
    assert forall i :: 0 <= i < hi - lo ==> ConvertAll(rows[lo..hi])[i] == ConvertAll(rows)[lo..hi][i];
  }

  /** GetFileList: the COUNT(*) of the bucket, then the window of `pageSize`
      rows starting at (page-1)*pageSize, newest first. A negative LIMIT or
      OFFSET is rejected by the SQL server. */
  function GetFileList(t: Table, bucketId: string, page: int, pageSize: int, fails: Faults): (r: Result<Page, DbError>)
    ensures r.Ok? <==>
      && SqlCount !in fails && SqlSelectPage !in fails
      && pageSize >= 0 && (page - 1) * pageSize >= 0
    ensures r.Ok? ==> r.value.total == |InBucket(t, bucketId)|
    ensures r.Ok? ==> r.value.files == ListWindow(t, bucketId, (page - 1) * pageSize, pageSize)
  {
    if SqlCount in fails then Err(SqlError(fails[SqlCount]))
    else
      var total := |InBucket(t, bucketId)|;
      var offset := (page - 1) * pageSize;
      if pageSize < 0 || offset < 0 then Err(SqlError("invalid LIMIT or OFFSET"))
      else if SqlSelectPage in fails then Err(SqlError(fails[SqlSelectPage]))
      else Ok(Page(ListWindow(t, bucketId, offset, pageSize), total))
  }

  /** The page is the slice of the bucket's newest-first rows that starts at
      the offset: each listed record is the row at its position. */
  lemma ListWindowIsSlice(t: Table, bucketId: string, offset: nat, limit: nat)
    ensures var ordered := BucketNewestFirst(t, bucketId);
            var files := ListWindow(t, bucketId, offset, limit);
            && |files| == (if offset >= |ordered| then 0 else if offset + limit <= |ordered| then limit else |ordered| - offset)
            && (forall i :: 0 <= i < |files| ==> files[i] == ConvertToFileInfo(ordered[offset + i]))
            && (offset < |ordered| ==> files == ConvertAll(ordered)[offset..offset + |files|])
  {
    var ordered := BucketNewestFirst(t, bucketId);
    if offset < |ordered| {
      var hi := if offset + limit <= |ordered| then offset + limit else |ordered|;
      assert Window(ordered, offset, limit) == ordered[offset..hi];
      ConvertAllSlice(ordered, offset, hi);
    }
  }

  /** LIMIT `limit` OFFSET `offset` on an ordered sequence. */
  function Window(s: seq<Row>, offset: nat, limit: nat): (w: seq<Row>)
    ensures |w| <= limit
    ensures offset < |s| ==> |w| == if offset + limit <= |s| then limit else |s| - offset
    ensures offset >= |s| ==> w == []
    ensures forall i :: 0 <= i < |w| ==> w[i] == s[offset + i]
    ensures forall row :: row in w ==> row in s
    ensures NewestFirst(s) ==> NewestFirst(w)
  {
    if offset >= |s| then []
    else if offset + limit <= |s| then s[offset..offset + limit]
    else s[offset..]
  }
}

=== FILE: objectstore.dfy ===
/** The object store of drivenadapters/minio.go over abstract state: a set of
    buckets and the objects stored under (bucket, name) keys. */
module ObjectStore {
  import opened Maybe
  import opened Strings
  import opened Interfaces
  import opened Faults

  datatype ObjKey = ObjKey(bucket: string, name: string)

  /** A stored object: its bytes, content type, entity tag and the store's
      clock reading when it was written. */
  datatype Obj = Obj(content: seq<byte>, contentType: string, etag: string, modified: int)

  /** The store. `missText` is the message the client library reports when a
      stat names an object (or bucket) that does not exist. */
  datatype Store = Store(buckets: set<string>, objects: map<ObjKey, Obj>, missText: string)

  /** The outcome of a mutating call: the error message, if any, and the
      store afterwards. */
  datatype Act = Act(err: Option<string>, store: Store)

  /** The outcome of a presigning call that may create a bucket. */
  datatype Signed = Signed(url: Result<string, string>, store: Store)

  /** Object information as GetFileInfo reports it. */
  datatype StorageFileInfo = StorageFileInfo(size: int, contentType: string, lastModified: int, etag: string)

  datatype Verb = GetVerb | PutVerb

  /** The signer of the client library: a URL for a verb, an object key and
      an expiry, in nanoseconds. */
  type Signer = (Verb, ObjKey, int) -> string

  /** Every object lives in an existing bucket. */
  ghost predicate StoreWf(s: Store) {
    forall k :: k in s.objects ==> k.bucket in s.buckets
  }

  /** The bucket check of Upload and GeneratePresignedUploadURL: creates the
      bucket when it is absent. */
  function EnsureBucket(s: Store, bucket: string, fails: Faults): (a: Act)
    ensures a.store.objects == s.objects && a.store.missText == s.missText
    ensures a.err.None? <==> BucketExists !in fails && (bucket in s.buckets || MakeBucket !in fails)
    ensures a.err.None? ==> a.store.buckets == s.buckets + {bucket}
    ensures a.err.Some? ==> a.store == s
  {
    if BucketExists in fails then Act(Some("failed to check bucket existence: " + fails[BucketExists]), s)
    else if bucket in s.buckets then Act(None, s)
    else if MakeBucket in fails then Act(Some("failed to create bucket: " + fails[MakeBucket]), s)
    else Act(None, s.(buckets := s.buckets + {bucket}))
  }

  /** Upload: make sure the bucket exists, then put the object. A failed put
      keeps a bucket that was just created. */
  function Upload(s: Store, bucket: string, name: string, content: seq<byte>, contentType: string,
                  etag: string, now: int, fails: Faults): (a: Act)
    ensures a.err.None? <==> EnsureBucket(s, bucket, fails).err.None? && PutObject !in fails
    ensures a.err.None? ==> a.store.objects == s.objects[ObjKey(bucket, name) := Obj(content, contentType, etag, now)]
    ensures a.err.Some? ==> a.store.objects == s.objects
    ensures a.store.buckets <= s.buckets + {bucket} && a.store.missText == s.missText
    ensures a.store == EnsureBucket(s, bucket, fails).store.(objects := a.store.objects)
    ensures StoreWf(s) ==> StoreWf(a.store)
  {
    var made := EnsureBucket(s, bucket, fails);
    if made.err.Some? then made
    else if PutObject in fails then Act(Some(fails[PutObject]), made.store)
    else Act(None, made.store.(objects := made.store.objects[ObjKey(bucket, name) := Obj(content, contentType, etag, now)]))
  }

  /** Download: a stream over the object. Opening does not look the object
      up, so a stream on a missing object is returned and fails when read. */
  function Download(s: Store, bucket: string, name: string, fails: Faults): (r: Result<Reader, string>)
    ensures r.Err? <==> GetObject in fails
    ensures r.Ok? ==> !r.value.closed
    ensures r.Ok? ==> (r.value.data.Some? <==> ObjKey(bucket, name) in s.objects)
    ensures r.Ok? && r.value.data.Some? ==> r.value.data.value == s.objects[ObjKey(bucket, name)].content
  {
    if GetObject in fails then Err("failed to get object: " + fails[GetObject])
    else
      var k := ObjKey(bucket, name);
      Ok(Reader(if k in s.objects then Some(s.objects[k].content) else None, false))
  }

  /** Delete: removes the object; removing an absent object succeeds. */
  function Delete(s: Store, bucket: string, name: string, fails: Faults): (a: Act)
    ensures a.err.Some? <==> RemoveObject in fails
    ensures a.err.Some? ==> a.store == s
    ensures a.err.None? ==> a.store == s.(objects := s.objects - {ObjKey(bucket, name)})
    ensures StoreWf(s) ==> StoreWf(a.store)
  {
    if RemoveObject in fails then Act(Some(fails[RemoveObject]), s)
    else Act(None, s.(objects := s.objects - {ObjKey(bucket, name)}))
  }

  /** StatObject: the object's description, or the store's error text. */
  function Stat(s: Store, bucket: string, name: string, fails: Faults): (r: Result<Obj, string>)
    ensures StatObject in fails ==> r == Err(fails[StatObject])
    ensures StatObject !in fails && ObjKey(bucket, name) in s.objects ==> r == Ok(s.objects[ObjKey(bucket, name)])
    ensures StatObject !in fails && ObjKey(bucket, name) !in s.objects ==> r == Err(s.missText)
  {
    if StatObject in fails then Err(fails[StatObject])
    else if ObjKey(bucket, name) in s.objects then Ok(s.objects[ObjKey(bucket, name)])
    else Err(s.missText)
  }

  /** FileExists: true when the stat succeeds; a stat error whose text says
      "not found" means false, and any other stat error is passed on. */
  function FileExists(s: Store, bucket: string, name: string, fails: Faults): (r: Result<bool, string>)
    ensures r == Ok(true) <==> StatObject !in fails && ObjKey(bucket, name) in s.objects
    ensures r == Ok(false) <==>
      (if StatObject in fails then Contains(fails[StatObject], "not found")
       else ObjKey(bucket, name) !in s.objects && Contains(s.missText, "not found"))
  {
    match Stat(s, bucket, name, fails)
    case Ok(_) => Ok(true)
    case Err(m) => if Contains(m, "not found") then Ok(false) else Err(m)
  }

  /** GetFileInfo: size, content type, modification time and entity tag of
      the stat, unchanged. */
  function GetFileInfo(s: Store, bucket: string, name: string, fails: Faults): (r: Result<StorageFileInfo, string>)
    ensures r.Ok? <==> StatObject !in fails && ObjKey(bucket, name) in s.objects
    ensures r.Ok? ==>
      var o := s.objects[ObjKey(bucket, name)];
      r.value == StorageFileInfo(|o.content|, o.contentType, o.modified, o.etag)
  {
    match Stat(s, bucket, name, fails)
    case Err(m) => Err(m)
    case Ok(o) => Ok(StorageFileInfo(|o.content|, o.contentType, o.modified, o.etag))
  }

  /** GeneratePresignedDownloadURL: fails unless the bucket and the object
      exist; never changes the store. */
  function PresignedDownloadURL(s: Store, bucket: string, name: string, expiry: int,
                                sign: Signer, fails: Faults): (r: Result<string, string>)
    ensures r.Ok? ==> bucket in s.buckets && FileExists(s, bucket, name, fails) == Ok(true)
    ensures r.Ok? ==> r.value == sign(GetVerb, ObjKey(bucket, name), expiry)
    ensures r.Ok? <==>
      && BucketExists !in fails && bucket in s.buckets
      && StatObject !in fails && ObjKey(bucket, name) in s.objects
      && PresignGet !in fails
  {
    if BucketExists in fails then Err("failed to check bucket existence: " + fails[BucketExists])
    else if bucket !in s.buckets then Err("bucket " + bucket + " does not exist")
    else
      match FileExists(s, bucket, name, fails)
      case Err(m) => Err("failed to check object existence: " + m)
      case Ok(false) => Err("object " + name + " does not exist in bucket " + bucket)
      case Ok(true) =>
        if PresignGet in fails then Err("failed to generate presigned URL: " + fails[PresignGet])
        else Ok(sign(GetVerb, ObjKey(bucket, name), expiry))
  }

  /** GeneratePresignedUploadURL: creates a missing bucket, then signs; the
      object need not exist. */
  function PresignedUploadURL(s: Store, bucket: string, name: string, expiry: int,
                              sign: Signer, fails: Faults): (r: Signed)
    ensures r.store == EnsureBucket(s, bucket, fails).store
    ensures r.store.objects == s.objects
    ensures r.url.Ok? <==> EnsureBucket(s, bucket, fails).err.None? && PresignPut !in fails
    ensures r.url.Ok? ==> r.url.value == sign(PutVerb, ObjKey(bucket, name), expiry) && bucket in r.store.buckets
  {
    var made := EnsureBucket(s, bucket, fails);
    if made.err.Some? then Signed(Err(made.err.value), made.store)
    else if PresignPut in fails then Signed(Err("failed to generate presigned upload URL: " + fails[PresignPut]), made.store)
    else Signed(Ok(sign(PutVerb, ObjKey(bucket, name), expiry)), made.store)
  }

  /** A stat after a successful put describes exactly what was put. */
  lemma StatAfterUpload(s: Store, bucket: string, name: string, content: seq<byte>, contentType: string,
                        etag: string, now: int, fails: Faults)
    ensures var put := Upload(s, bucket, name, content, contentType, etag, now, fails);
            put.err.None? && StatObject !in fails ==>
              && Stat(put.store, bucket, name, fails) == Ok(Obj(content, contentType, etag, now))
              && FileExists(put.store, bucket, name, fails) == Ok(true)
              && GetFileInfo(put.store, bucket, name, fails) == Ok(StorageFileInfo(|content|, contentType, now, etag))
  {
  }

  /** A put, successful or not, leaves the stat of every other key as it was. */
  lemma StatAfterUploadElsewhere(s: Store, bucket: string, name: string, content: seq<byte>, contentType: string,
                                 etag: string, now: int, fails: Faults, other: ObjKey)
    requires other != ObjKey(bucket, name)
    ensures Stat(Upload(s, bucket, name, content, contentType, etag, now, fails).store, other.bucket, other.name, fails)
            == Stat(s, other.bucket, other.name, fails)
  {
  }

  /** A stat after a successful delete reports the store's miss text, which
      FileExists reads as "absent" exactly when that text says "not found". */
  lemma StatAfterDelete(s: Store, bucket: string, name: string, fails: Faults)
    ensures var gone := Delete(s, bucket, name, fails);
            gone.err.None? && StatObject !in fails ==>
              && Stat(gone.store, bucket, name, fails) == Err(s.missText)
              && (FileExists(gone.store, bucket, name, fails) == Ok(false) <==> Contains(s.missText, "not found"))
              && GetFileInfo(gone.store, bucket, name, fails).Err?
  {
  }
}

=== FILE: strings.dfy ===
/** The few Go string operations the core relies on: strings.Contains,
    strings.ToLower restricted to ASCII letters, strings.TrimSuffix and the
    UTF-8 byte length that `len(s)` measures. Strings are sequences of Unicode
    scalar values; their bytes are those of the UTF-8 encoding. */
module Strings {

  predicate IsPrefix(prefix: string, s: string) {
    |prefix| <= |s| && s[..|prefix|] == prefix
  }

  predicate IsSuffix(suffix: string, s: string) {
    |suffix| <= |s| && s[|s| - |suffix|..] == suffix
  }

  /** strings.Contains: `sub` occurs somewhere in `s`. */
  predicate Contains(s: string, sub: string)
    decreases |s|
  {
    IsPrefix(sub, s) || (|s| > 0 && Contains(s[1..], sub))
  }

  /** A one-character pattern occurs exactly when the character does. */
  lemma {:induction false} ContainsChar(s: string, c: char)
    ensures Contains(s, [c]) <==> c in s
    decreases |s|
  {
    if |s| > 0 {
      ContainsChar(s[1..], c);
      assert s == [s[0]] + s[1..];
    }
  }

  /** An occurrence at a known position is found. */
  lemma {:induction false} ContainsAt(s: string, sub: string, i: nat)
    requires i + |sub| <= |s| && s[i..i + |sub|] == sub
    ensures Contains(s, sub)
    decreases i
  {
    if i > 0 {
      assert s[1..][i - 1..i - 1 + |sub|] == s[i..i + |sub|];
      ContainsAt(s[1..], sub, i - 1);
    }
  }

  /** The lower-case form of one character under strings.ToLower, for the
      ASCII letters; every other character is left unchanged. */
  function LowerChar(c: char): (l: char)
    ensures 'A' <= c <= 'Z' ==> 'a' <= l <= 'z' && l as int == c as int + 32
    ensures !('A' <= c <= 'Z') ==> l == c
  {
    if 'A' <= c <= 'Z' then (c as int + 32) as char else c
  }

  function Lower(s: string): (r: string)
    ensures |r| == |s|
    ensures forall i :: 0 <= i < |s| ==> r[i] == LowerChar(s[i])
  {
    seq(|s|, i requires 0 <= i < |s| => LowerChar(s[i]))
  }

  /** Lower-casing twice is lower-casing once. */
  lemma LowerIdempotent(s: string)
    ensures Lower(Lower(s)) == Lower(s)
  {
  }

  /** Lower-casing commutes with taking a slice. */
  lemma LowerSlice(s: string, lo: nat, hi: nat)
    requires lo <= hi <= |s|
    ensures Lower(s[lo..hi]) == Lower(s)[lo..hi]
  {
  }

  /** strings.TrimSuffix: `s` without `suffix` when it ends with it. */
  function TrimSuffix(s: string, suffix: string): (r: string)
    ensures IsSuffix(suffix, s) ==> r + suffix == s
    ensures !IsSuffix(suffix, s) ==> r == s
  {
    if IsSuffix(suffix, s) then s[..|s| - |suffix|] else s
  }

  /** Number of bytes of the UTF-8 encoding of one scalar value. */
  function Utf8Width(c: char): (n: nat)
    ensures 1 <= n <= 4
    ensures n == 1 <==> c as int < 0x80
  {
    if c as int < 0x80 then 1
    else if c as int < 0x800 then 2
    else if c as int < 0x10000 then 3
    else 4
  }

  /** Go's `len(s)`: the byte length of the UTF-8 encoding of `s`. */
  function Utf8Len(s: string): (n: nat)
    ensures |s| <= n <= 4 * |s|
    ensures n == |s| <==> forall i :: 0 <= i < |s| ==> s[i] as int < 0x80
  {
    if s == [] then 0
    else
      var rest := Utf8Len(s[1..]);
      assert forall i :: 1 <= i < |s| ==> s[i] == s[1..][i - 1];
      Utf8Width(s[0]) + rest
  }
}

=== FILE: validation.dfy ===
/** The pure checks of logics/common.go: file-name legality, the size
    ceiling, the extension allow-list, and the object-name builder. */
module Validation {
  import opened Strings
  import opened FilePath
  import opened Interfaces

  /** The verdict of a check: nil, or the error it returns. */
  datatype Check = Valid | Invalid(error: Error)

  const MaxFileNameBytes: nat := 255

  /** 5 GiB. */
  const MaxFileSize: int := 5 * 1024 * 1024 * 1024

  /** The substrings a file name must not contain, in the order they are tried. */
  const InvalidChars: seq<string> := ["<", ">", ":", "\"", "|", "?", "*", "\\", "/"]

  /** The same characters, as one string. */
  const ForbiddenChars: string := "<>:\"|?*\\/"

  /** The accepted extensions, lower case, leading dot included: images,
      video, installers, archives, office documents and text. */
  const AllowedExtensions: seq<string> := [
    ".jpg", ".jpeg", ".png", ".gif", ".bmp", ".webp",
    ".mp4", ".avi", ".mov", ".wmv", ".flv", ".mkv",
    ".exe", ".msi", ".dmg", ".pkg",
    ".zip", ".rar", ".7z", ".tar", ".gz",
    ".pdf", ".doc", ".docx", ".xls", ".xlsx", ".ppt", ".pptx",
    ".txt", ".md", ".json", ".xml", ".csv"
  ]

  /** Reference description of a legal file name: non-empty, at most 255
      bytes of UTF-8, and free of the forbidden characters. */
  ghost predicate LegalFileName(name: string) {
    && name != []
    && Utf8Len(name) <= MaxFileNameBytes
    && forall i :: 0 <= i < |name| ==> name[i] !in ForbiddenChars
  }

  /** Reference description of an accepted extension: lower-cased, the name
      ends with one of the allowed entries. */
  ghost predicate HasAllowedSuffix(filename: string) {
    exists i :: 0 <= i < |AllowedExtensions| && IsSuffix(AllowedExtensions[i], Lower(filename))
  }

  /** Whether one of `subs` occurs in `s`, trying them in order. */
  function AnyContained(s: string, subs: seq<string>): (found: bool)
    ensures found <==> exists i :: 0 <= i < |subs| && Contains(s, subs[i])
  {
    if subs == [] then false
    else if Contains(s, subs[0]) then true
    else
      assert forall i :: 1 <= i < |subs| ==> subs[i] == subs[1..][i - 1];
      AnyContained(s, subs[1..])
  }

  /** Trying one-character patterns finds one exactly when the string holds
      one of their characters. */
  lemma AnySingletonContained(s: string, subs: seq<string>, chars: string)
    requires |subs| == |chars|
    requires forall i :: 0 <= i < |subs| ==> subs[i] == [chars[i]]
    ensures AnyContained(s, subs) <==> exists k :: 0 <= k < |s| && s[k] in chars
  {
    if AnyContained(s, subs) {
      var i :| 0 <= i < |subs| && Contains(s, subs[i]);
      ContainsChar(s, chars[i]);
      var k :| 0 <= k < |s| && s[k] == chars[i];
      assert s[k] in chars;
    }
    if exists k :: 0 <= k < |s| && s[k] in chars {
      var k :| 0 <= k < |s| && s[k] in chars;
      var i :| 0 <= i < |chars| && chars[i] == s[k];
      ContainsChar(s, chars[i]);
      assert Contains(s, subs[i]);
    }
  }

  /** Trying the forbidden substrings finds one exactly when the name holds a
      forbidden character. */
  lemma InvalidCharsFound(name: string)
    ensures AnyContained(name, InvalidChars) <==> exists k :: 0 <= k < |name| && name[k] in ForbiddenChars
  {
    InvalidCharsAreSingletons();
    AnySingletonContained(name, InvalidChars, ForbiddenChars);
  }

  /** Each forbidden substring is one forbidden character. */
  lemma InvalidCharsAreSingletons()
    ensures |InvalidChars| == |ForbiddenChars|
    ensures forall i :: 0 <= i < |InvalidChars| ==> InvalidChars[i] == [ForbiddenChars[i]]
  {
  }

  /** ValidFileName. */
  function ValidFileName(filename: string): (r: Check)
    ensures r.Valid? <==> LegalFileName(filename)
    ensures r.Invalid? ==> r.error == HttpError(StatusBadRequest, InvalidFilename)
  {
    InvalidCharsFound(filename);
    if filename == "" || Utf8Len(filename) > MaxFileNameBytes then
      Invalid(HttpError(StatusBadRequest, InvalidFilename))
    else if AnyContained(filename, InvalidChars) then
      Invalid(HttpError(StatusBadRequest, InvalidFilename))
    else
      Valid
  }

  /** ValidFileSize. Zero and negative sizes pass. */
  function ValidFileSize(size: int): (r: Check)
    ensures r.Valid? <==> size <= MaxFileSize
    ensures r.Invalid? ==> r.error == HttpError(StatusBadRequest, SizeExceeded)
  {
    if size > MaxFileSize then Invalid(HttpError(StatusBadRequest, SizeExceeded)) else Valid
  }

  /** Every allowed entry is a dot followed by letters and digits. */
  lemma AllowedAreExtensions()
    ensures forall i :: 0 <= i < |AllowedExtensions| ==>
      AllowedExtensions[i] != [] && ExtShaped(AllowedExtensions[i])
  {
  }

  /** ValidFileExtension: the lower-cased extension of the name is on the
      allow-list. */
  function ValidFileExtension(filename: string): (r: Check)
    ensures r.Valid? <==> HasAllowedSuffix(filename)
    ensures r.Invalid? ==> r.error == HttpError(StatusBadRequest, ExtensionNotAllowed)
  {
    var ext := Lower(Ext(filename));
    ExtensionAllowedIffSuffix(filename);
    if ext in AllowedExtensions then Valid else Invalid(HttpError(StatusBadRequest, ExtensionNotAllowed))
  }

  /** The allow-list test on the extension agrees with the suffix description. */
  lemma ExtensionAllowedIffSuffix(filename: string)
    ensures Lower(Ext(filename)) in AllowedExtensions <==> HasAllowedSuffix(filename)
  {
    var e := Ext(filename);
    var lf := Lower(filename);
    LowerSlice(filename, |filename| - |e|, |filename|);
    ExtLower(filename);
    if HasAllowedSuffix(filename) {
      var i :| 0 <= i < |AllowedExtensions| && IsSuffix(AllowedExtensions[i], lf);
      AllowedAreExtensions();
      ExtUnique(lf, AllowedExtensions[i]);
    }
  }

  /** The extension check ignores letter case. */
  lemma ExtensionCaseInsensitive(a: string, b: string)
    requires Lower(a) == Lower(b)
    ensures ValidFileExtension(a) == ValidFileExtension(b)
  {
    ExtLower(a);
    ExtLower(b);
  }

  /** A name without any '.' has no extension and is rejected. */
  lemma NoDotRejected(filename: string)
    requires '.' !in filename
    ensures ValidFileExtension(filename).Invalid?
  {
    ExtWithoutDot(filename);
    assert Lower(Ext(filename)) == [];
  }

  /** Only the last segment counts: "x.tar.gz" is judged as ".gz". */
  lemma LastExtensionCounts()
    ensures Ext("x.tar.gz") == ".gz"
    ensures ValidFileExtension("x.tar.gz").Valid?
  {
    var g := ".gz";
    assert IsExtensionOf(g, "x.tar.gz");
    ExtUnique("x.tar.gz", g);
    assert Lower(g) == g;
    assert AllowedExtensions[20] == g;
  }

  /** "a.JPG" is accepted like "a.jpg". */
  lemma UpperCaseExtensionAccepted()
    ensures ValidFileExtension("a.JPG") == ValidFileExtension("a.jpg") == Valid
  {
    var j := ".jpg";
    assert IsExtensionOf(j, "a.jpg");
    ExtUnique("a.jpg", j);
    assert Lower(j) == j;
    assert AllowedExtensions[0] == j;
    assert Lower("a.JPG") == Lower("a.jpg");
    ExtensionCaseInsensitive("a.JPG", "a.jpg");
  }

  /** The checks of a direct upload: name, then size, then extension; the
      first failure is the one reported. */
  function ValidateFile(file: FileHeader): (r: Check)
    ensures r.Valid? <==> LegalFileName(file.filename) && file.Size() <= MaxFileSize && HasAllowedSuffix(file.filename)
    ensures r.Invalid? ==> r.error.HttpError? && r.error.status == StatusBadRequest
    ensures r.Invalid? ==>
      (r.error.cause ==
         if !LegalFileName(file.filename) then InvalidFilename
         else if file.Size() > MaxFileSize then SizeExceeded
         else ExtensionNotAllowed)
  {
    var byName := ValidFileName(file.filename);
    if byName.Invalid? then byName
    else
      var bySize := ValidFileSize(file.Size());
      if bySize.Invalid? then bySize
      else ValidFileExtension(file.filename)
  }

  /** The checks of a presigned upload: name, then size; the extension is
      not checked. */
  function ValidateFileInfo(filename: string, contentType: string, size: int): (r: Check)
    ensures r.Valid? <==> LegalFileName(filename) && size <= MaxFileSize
    ensures r.Invalid? ==> r.error == HttpError(StatusBadRequest, if !LegalFileName(filename) then InvalidFilename else SizeExceeded)
  {
    var byName := ValidFileName(filename);
    if byName.Invalid? then byName else ValidFileSize(size)
  }

  /** The two upload paths disagree on a name whose extension is not allowed. */
  lemma PresignedPathSkipsExtension()
    ensures ValidateFileInfo("run.sh", "text/x-sh", 10).Valid?
    ensures ValidateFile(FileHeader("run.sh", [], [])).Invalid?
  {
    ShellScriptNameLegal();
    ShellScriptExtensionRefused();
  }

  lemma ShellScriptNameLegal()
    ensures LegalFileName("run.sh")
  {
    assert forall k :: 0 <= k < |"run.sh"| ==> "run.sh"[k] !in ForbiddenChars;
  }

  lemma ShellScriptExtensionRefused()
    ensures !HasAllowedSuffix("run.sh")
  {
    ShellScriptExtension();
    ShellExtensionNotAllowed();
    ExtensionAllowedIffSuffix("run.sh");
  }

  lemma ShellScriptExtension()
    ensures Lower(Ext("run.sh")) == ".sh"
  {
    var s := ".sh";
    assert IsExtensionOf(s, "run.sh");
    ExtUnique("run.sh", s);
    assert Lower(s) == s;
  }

  lemma ShellExtensionNotAllowed()
    ensures ".sh" !in AllowedExtensions
  {
  }

  /** generateUniqueObjectName, with the clock reading (formatted as
      YYYYMMDDHHMMSS) and the random token supplied by the caller:
      stem, '_', timestamp, '_', token, extension. */
  function UniqueObjectName(filename: string, timestamp: string, token: string): (key: string)
    ensures IsPrefix(TrimSuffix(filename, Ext(filename)), key)
    ensures IsSuffix(Ext(filename), key)
    ensures TrimSuffix(filename, Ext(filename)) + Ext(filename) == filename
  {
    var ext := Ext(filename);
    var stem := TrimSuffix(filename, ext);
    stem + "_" + timestamp + "_" + token + ext
  }

  /** The object name keeps the original extension, as long as the
      timestamp and token hold no '.' or separator. */
  lemma UniqueObjectNameKeepsExtension(filename: string, timestamp: string, token: string)
    requires '.' !in timestamp && Separator !in timestamp
    requires '.' !in token && Separator !in token
    ensures Ext(UniqueObjectName(filename, timestamp, token)) == Ext(filename)
  {
    var ext := Ext(filename);
    var stem := TrimSuffix(filename, ext);
    var mid := "_" + timestamp + "_" + token;
    var key := UniqueObjectName(filename, timestamp, token);
    assert key == stem + mid + ext;
    if ext == [] {
      assert stem == filename;
      assert forall k :: |stem| <= k < |key| ==> key[k] == mid[k - |stem|];
      forall k | 0 <= k < |key| && key[k] == '.'
        ensures exists j :: k < j < |key| && key[j] == Separator
      {
        assert filename[k] == '.';
        var j :| k < j < |filename| && filename[j] == Separator;
        assert key[j] == Separator;
      }
    }
    ExtUnique(key, ext);
  }

  /** For a fixed file name, timestamps of one length and tokens of one
      length, equal object names come only from equal timestamps and equal
      tokens: the key determines both. */
  lemma UniqueObjectNameInjective(filename: string, ts1: string, t1: string, ts2: string, t2: string)
    requires |ts1| == |ts2| && |t1| == |t2|
    requires UniqueObjectName(filename, ts1, t1) == UniqueObjectName(filename, ts2, t2)
    ensures ts1 == ts2 && t1 == t2
  {
    var ext := Ext(filename);
    var stem := TrimSuffix(filename, ext) + "_";
    assert UniqueObjectName(filename, ts1, t1) == stem + ts1 + "_" + t1 + ext;
    assert UniqueObjectName(filename, ts2, t2) == stem + ts2 + "_" + t2 + ext;
    SameShapeSamePieces(stem, ts1, t1, ts2, t2, "_", ext);
  }

  /** Two strings with the same fixed parts around pieces of matching
      lengths agree only when the pieces do. */
  lemma SameShapeSamePieces(a: string, x1: string, y1: string, x2: string, y2: string, m: string, e: string)
    requires |x1| == |x2| && |y1| == |y2|
    requires a + x1 + m + y1 + e == a + x2 + m + y2 + e
    ensures x1 == x2 && y1 == y2
  {
    var k1 := a + x1 + m + y1 + e;
    var k2 := a + x2 + m + y2 + e;
    assert x1 == k1[|a|..|a| + |x1|] == k2[|a|..|a| + |x2|] == x2;
    var o := |a| + |x1| + |m|;
    assert y1 == k1[o..o + |y1|] == k2[o..o + |y2|] == y2;
  }
}
